=== FILE: README.md ===
# LunchHunt core, modelled in Dafny

LunchHunt checks the daily menus of the Thuringian student-services
canteens. It looks for favourite dishes and pushes the matches to a Gotify
server. This project models the pure logic behind that, and proves
properties of the model:

- **Registry** (`registry.dfy`): the canteen registry, which maps a code to
  a region and a URL slug. It covers how a canteen's address and display
  name are built from that registry.
- **Extract** (`extract.dfy`): reading a canteen page. A page is a sequence
  of sections, each with a heading and meal texts. Reading it gives an
  insertion-ordered mapping from the configured categories to bulleted
  dishes.
- **Scraper** (`scraper.dfy`):
  - the scraper's configuration defaults;
  - the state one scrape leaves behind;
  - the case-insensitive keyword search over a dish list or a category
    mapping.
- **TimeWindow** (`timewindow.dfy`): dropping the meal categories whose
  serving time is over, for a clock time passed in as seconds since
  midnight.
- **Cron** (`cron.dfy`): the text side of the crontab handling. This is the
  schedule line `create_cronjob` builds, its errors and the crontab it
  writes, plus the lines `delete_cron_job` keeps.
- **Notify** (`notifier.dfy`): the notifier. It covers:
  - the normalised server address;
  - how a string, a list or a category mapping becomes one message text;
  - the decision whether to send, and at which priority.
- **Settings** (`settings.dfy`): the settings page's normalisation:
  - alarm days;
  - the `;`-separated favourite foods;
  - the `.json` profile file names and their dropdown labels;
  - the profile written on save;
  - the canteen names offered.

Shared building blocks:

- `wrappers.dfy` has `Option` and `Result`.
- `seqs.dfy` has filtering, de-duplication, joining and splitting of
  sequences.
- `text.dfy` models Python's `str` methods the core uses: `strip`, `lower`,
  `upper`, `title`, `splitlines`, `in` on strings and `int`/`str`
  conversion.
- `dicts.dfy` models a Python `dict` as a sequence of pairs in insertion
  order. A later assignment to a key keeps the key's first position and
  takes the last value, as a dict comprehension does.

Python's `None` is `None` of `Option`. A raised `ValueError` is `Err` of
`Result`. Truthiness of an optional string is spelled out as `Truthy`.

Where the code and its documentation disagree, the model follows the code:

- A meal with empty text is still listed, as the bullet `"• "`.
- A keyword search with no dishes given and no scraped menu returns
  `None` rather than failing.
- A category missing from the timetable closes at midnight, moved back by
  the offset. With a positive offset it is therefore open until shortly
  before midnight, not always closed.

## Model

| member | source | states |
|---|---|---|
| Registry.DefaultMensaDictCodes | src/lunchhunt/scrap/scraper.py:51-88 | the default registry has 28 canteens, under the codes MNS … MWH in the order listed (the same table as src/lunchhunt/utils/util_functions.py:16-53) |
| Registry.BuildMensaUrl | src/lunchhunt/scrap/scraper.py:102-107 | the address is empty exactly when the code is not registered; otherwise it begins `base/location/` and ends in `.html` |
| Registry.MensaUrlPath | src/lunchhunt/scrap/scraper.py:106-107 | when neither location nor slug holds a `/`, the address's path splits back into the location and the registered slug |
| Registry.EntryUrl | src/lunchhunt/scrap/scraper.py:102-107 | in a registry without repeated codes, each entry's address is `base + "/" + location + "/" + slug + ".html"` |
| Registry.DisplayName | src/lunchhunt/scrap/scraper.py:216 | a display name is as long as the slug and holds no hyphen |
| Registry.DisplayNameShape | src/lunchhunt/scrap/scraper.py:216 | character by character, a hyphen becomes a space; a character right after a cased one is lower-cased and any other upper-cased, so each word starts with a capital and continues in lower case |
| Registry.ModifyMensaName | src/lunchhunt/scrap/scraper.py:215-216 | a registered code gives the display name of its slug; an unknown code is itself turned into a name |
| Registry.MensaAmPark | src/lunchhunt/scrap/scraper.py:215-216 | the slug `mensa-am-park` is shown as "Mensa Am Park" |
| Extract.CategoryName | src/lunchhunt/scrap/scraper.py:141-144 | a section's name is its heading when that has text, and exactly "Unknown Category" when it is empty |
| Extract.GetMealCategories | src/lunchhunt/scrap/scraper.py:137-147 | nothing exactly when the page has no section. Otherwise the sections, and in the same positions their names: the heading, or "Unknown Category" for an empty heading |
| Extract.Dishes | src/lunchhunt/scrap/scraper.py:166-169 | each meal becomes exactly one dish, the bullet followed by the meal text; none is dropped |
| Extract.ZipDishes | src/lunchhunt/scrap/scraper.py:170 | pairing stops at the shorter list, and the keys are the names in order |
| Extract.GetMenuByCategory | src/lunchhunt/scrap/scraper.py:161-174 | nothing exactly when sections or names are missing or empty, or when no paired name is configured; otherwise a non-empty dict whose keys are the configured names in first-appearance order |
| Extract.MenuEntry | src/lunchhunt/scrap/scraper.py:165-172 | a category repeated on the page takes the dishes of its last section |
| Scraper.MenuCategoriesOf | src/lunchhunt/scrap/scraper.py:28-31 | one category becomes a list of one; an absent or empty list becomes Frühstück, Mittagessen, Zwischenversorgung, Abendessen |
| Scraper.NewScraper | src/lunchhunt/scrap/scraper.py:28-39 | empty or absent base URL and registry take their defaults; no scrape state is set |
| Scraper.ScrapeMenuByCategory | src/lunchhunt/scrap/scraper.py:186-203 | an unknown code raises and changes nothing. Otherwise the address, display name and location are set first. A failed fetch returns nothing and keeps the old menu; a fetched page's menu is both stored and returned; the menu stored and returned for a page is exactly what extraction gives for its sections |
| Scraper.ScrapedMenuCategories | src/lunchhunt/scrap/scraper.py:198-203 | a scraped page gives nothing exactly when it has no section or none is configured; a menu is non-empty and holds only configured categories |
| Scraper.ScrapedMenuEntries | src/lunchhunt/scrap/scraper.py:198-203 | each category of a scraped menu holds the dishes of the page's last section with that name |
| Scraper.LoweredKeywords | src/lunchhunt/scrap/scraper.py:239-241 | a single keyword counts as a list of one; every keyword is lower-cased |
| Scraper.Hits | src/lunchhunt/scrap/scraper.py:246 | a dish hits exactly when some keyword occurs at some position of the lower-cased dish; no keyword hits nothing, and an empty keyword hits every dish |
| Scraper.MatchFlat | src/lunchhunt/scrap/scraper.py:243-248 | nothing exactly when no dish hits. Otherwise an order-preserving sublist keeping exactly the hitting dishes, each as often as in the input |
| Scraper.FilterCategories | src/lunchhunt/scrap/scraper.py:251-257 | every category is kept, in order, with its dishes filtered by the flat rule |
| Scraper.MatchGrouped | src/lunchhunt/scrap/scraper.py:250-262 | nothing exactly when no dish of any category hits. Otherwise the categories with matches, in input order, each with a non-empty list of exactly its own matches; every category with a match is among them |
| Scraper.FindMatches | src/lunchhunt/scrap/scraper.py:233-266 | empty or absent dishes fall back to the last scraped menu, and give nothing when that is empty too. A list is matched by the flat rule, a mapping by the grouped rule, any other value gives nothing |
| Scraper.HitsIgnoresCase | src/lunchhunt/scrap/scraper.py:246 | whether a dish hits does not depend on its case |
| Scraper.KeywordsIgnoreCase | src/lunchhunt/scrap/scraper.py:239-241 | a keyword matches the same in any case, and alone or as a list of one |
| Scraper.EmptyPageNoMatches | src/lunchhunt/scrap/scraper.py:194-237 | after scraping a page without sections there is nothing to search |
| TimeWindow.EffectiveTimetable | src/lunchhunt/utils/util_functions.py:110-115 | an absent or empty timetable is replaced by the four-entry default; a given one is used as is |
| TimeWindow.Cutoff | src/lunchhunt/utils/util_functions.py:119 | a category's cutoff is its timetable entry, or midnight when it has none |
| TimeWindow.EndTime | src/lunchhunt/utils/util_functions.py:119-121 | the end time is the cutoff moved back by the offset, on the 24-hour clock |
| TimeWindow.WholeDayOffset | src/lunchhunt/utils/util_functions.py:119-123 | with an offset of whole days a category is open exactly before its timetable time, and a category the timetable does not know is never open |
| TimeWindow.UpdateMenuCategories | src/lunchhunt/utils/util_functions.py:117-130 | nothing exactly when every category's end time has been reached. Otherwise an order-preserving sublist keeping exactly the open categories, with their multiplicities |
| TimeWindow.LunchWindow | src/lunchhunt/utils/util_functions.py:110-130 | with the defaults, lunch is offered at 13:29 and gone at 13:30 and 13:31 |
| TimeWindow.UnknownCategory | src/lunchhunt/utils/util_functions.py:119-123 | a category without a timetable entry is never open with offset 0. With an offset of up to a day, it is open until that many minutes before midnight |
| TimeWindow.DinnerNotInDefaultTable | src/lunchhunt/utils/util_functions.py:110-123 | the default table knows Abendmensa, not Abendessen, so Abendessen stays open until 23:30 |
| TimeWindow.WrapsAroundMidnight | src/lunchhunt/utils/util_functions.py:119-121 | a 00:15 cutoff with 30 minutes of offset ends at 23:45 |
| TimeWindow.LaterKeepsLess | src/lunchhunt/utils/util_functions.py:117-130 | what is open later was open earlier, in the same order |
| Cron.DayToCron | src/lunchhunt/utils/util_functions.py:171-174 | a day has a cron number exactly when it is one of the seven weekday names |
| Cron.DayToCronRoundTrip | src/lunchhunt/utils/util_functions.py:171-174 | each weekday's number is one digit and reads back as that day |
| Cron.EnabledDays | src/lunchhunt/utils/util_functions.py:175-176 | the enabled days are exactly the days switched on, in the mapping's order, each once when the mapping is a dict |
| Cron.DayNumbers | src/lunchhunt/utils/util_functions.py:175-177 | the day numbers exist exactly when every enabled day is a weekday name, and name the days in order; otherwise the error names the first day that is not a weekday |
| Cron.Or | src/lunchhunt/utils/util_functions.py:180-184 | an absent or empty option takes its default |
| Cron.CronTime | src/lunchhunt/utils/util_functions.py:178 | when the day numbers hold no space, the schedule splits at spaces into minute, hour, two stars and the comma-joined day numbers |
| Cron.Invocation | src/lunchhunt/utils/util_functions.py:180-188 | with space-free options it splits at spaces into the interpreter, the script, the settings name, `>>`, the log and `2>&1`, each option taking its default when absent or empty; it is one line when none of the options holds a line break |
| Cron.CronCommand | src/lunchhunt/utils/util_functions.py:186-188 | a truthy override is the command; otherwise the command is the schedule, a space and the invocation, so its fields are the schedule's followed by the invocation's; it is one line when the schedule and options are |
| Cron.CreateCronjob | src/lunchhunt/utils/util_functions.py:162-202 | a missing hour or minute raises; so does having no enabled day, checked next; otherwise the error names the first enabled day that is not a weekday. A new crontab is written exactly when the time is set and some days are enabled, all of them weekdays. An override command is written as the stripped old crontab, a line break, the command and a line break |
| Cron.CreateCronjobWrites | src/lunchhunt/utils/util_functions.py:175-202 | the written crontab reads as the old lines plus one new last line. That line is the override command when one is given; otherwise its first five fields are the minute, the hour, two stars and the numbers of the enabled days in order, and with space-free options the remaining six are the interpreter, script, settings name, `>>`, log and `2>&1` |
| Cron.CronTimeRoundTrip | src/lunchhunt/utils/util_functions.py:178 | the schedule splits into five fields: minute and hour parse back, two stars, and comma-separated numbers naming the enabled days in order |
| Cron.AddToCrontab | src/lunchhunt/utils/util_functions.py:202 | the new crontab reads as the old lines (without surrounding blank text) followed by the command as one more line |
| Cron.KeptLines | src/lunchhunt/utils/util_functions.py:229-232 | the kept lines are, in order, exactly those whose stripped text is not selected, each as often as in the crontab |
| Cron.DeleteCronJob | src/lunchhunt/utils/util_functions.py:229-234 | the new crontab reads back as exactly the kept lines |
| Cron.DeleteCronJobIdempotent | src/lunchhunt/utils/util_functions.py:229-234 | deleting the same jobs again changes nothing, also when the first deletion left no line |
| Notify.Scheme | src/lunchhunt/notify/notifier.py:40 | the scheme is https exactly when secure, http otherwise |
| Notify.Host | src/lunchhunt/notify/notifier.py:33-37 | the host is the parsed path when there is no scheme or no network location, and the network location when both are present |
| Notify.ServerUrl | src/lunchhunt/notify/notifier.py:39-43 | the server address is scheme, `://`, host and `/message`, with the host recoverable from between them |
| Notify.NewNotifier | src/lunchhunt/notify/notifier.py:15-46 | the notifier keeps the normalised address, the token and the default priority |
| Notify.NormalizeStable | src/lunchhunt/notify/notifier.py:31-43 | normalising an address that already has a scheme and the same host gives the same address |
| Notify.OptLine | src/lunchhunt/notify/notifier.py:115-118 | an optional line is present exactly when its text is truthy |
| Notify.Framed | src/lunchhunt/notify/notifier.py:113-118 | the lines keep their order, framed by a truthy location first and a truthy website last |
| Notify.ListMessage | src/lunchhunt/notify/notifier.py:113-119 | a list message starts with a truthy location and ends with a truthy website |
| Notify.ListMessageLines | src/lunchhunt/notify/notifier.py:113-119 | a list message of single-line parts splits back at line breaks into the framed lines |
| Notify.HeaderText | src/lunchhunt/notify/notifier.py:143-144 | a header is the upper-cased category alone when the location is not truthy. Otherwise it is that, then `" - "` and the location, and nothing else |
| Notify.DictParts | src/lunchhunt/notify/notifier.py:140-146 | there are no parts exactly when there are no categories |
| Notify.FormatDictMessage | src/lunchhunt/notify/notifier.py:140-151 | the message starts with a line break and the first header, and ends with a truthy website; it is empty with neither categories nor website |
| Notify.DictLines | src/lunchhunt/notify/notifier.py:142-146 | the line layout: for each category, an empty line, its header, then its dishes |
| Notify.DictPartsAsLines | src/lunchhunt/notify/notifier.py:140-146 | joining the parts gives the same text as joining that line layout |
| Notify.FormatDictLines | src/lunchhunt/notify/notifier.py:140-151 | the message is that line layout and the website joined by line breaks; with single-line parts it splits back into them |
| Notify.MittagessenExample | src/lunchhunt/notify/notifier.py:140-151 | `{"Mittagessen": ["• Gulasch"]}` gives `"\nMITTAGESSEN\n• Gulasch"` |
| Notify.ParseMessageInput | src/lunchhunt/notify/notifier.py:107-123 | a list uses the list rule, a mapping the mapping rule, any other value gives the empty text |
| Notify.SingleIsOneLine | src/lunchhunt/notify/notifier.py:107-108 | a string is formatted as a list of one, and alone it is itself |
| Notify.EffectivePriority | src/lunchhunt/notify/notifier.py:79 | an absent or zero priority falls back to the notifier's default |
| Notify.SendNotification | src/lunchhunt/notify/notifier.py:69-80 | nothing is sent exactly when the formatted message is blank; a payload carries that message, the address, token, title and effective priority |
| Notify.BlankListSkipped | src/lunchhunt/notify/notifier.py:71-74 | a list message is skipped exactly when each of its lines, and its location and website where truthy, is blank |
| Notify.CategoriesAlwaysSent | src/lunchhunt/notify/notifier.py:71-74 | a mapping whose first category name is not blank is always sent |
| Notify.UnsupportedSkipped | src/lunchhunt/notify/notifier.py:121-123 | an unsupported message, or an empty mapping without website, is not sent |
| Notify.PriorityNonZero | src/lunchhunt/notify/notifier.py:79 | with a non-zero default the sent priority is never 0; an explicit 0 gives the default |
| Notify.DefaultsSent | src/lunchhunt/notify/notifier.py:19-79 | with the constructor's and the send call's defaults, a sent message carries the title ‼️LunchHunt‼️ and priority 5 |
| Settings.AllOn | src/lunchhunt/web/webUI.py:668 | every listed day is a key, and every switch is on |
| Settings.UpdateAlarmDays | src/lunchhunt/web/webUI.py:667-668 | a dict of the listed days without repeats, all switched on; nothing listed gives the empty dict |
| Settings.LoadAlarmDays | src/lunchhunt/web/webUI.py:605-611 | the loaded days are exactly those switched on, in the stored order, each once |
| Settings.LoadAlarmDaysOrDefault | src/lunchhunt/web/webUI.py:605-610 | a stored mapping gives exactly its days that are on; without one, exactly the default days, in their given order when they are distinct, and no days when there are no defaults |
| Settings.AlarmDaysRoundTrip | src/lunchhunt/web/webUI.py:605-611 | saving then loading gives back any list of distinct days |
| Settings.SplitFavoriteFoods | src/lunchhunt/web/webUI.py:457-459 | no text gives no foods. Otherwise the text is cut into `;`-free pieces that join back to it with `;`, and the foods are those pieces stripped, one more than there are `;` |
| Settings.StripAll | src/lunchhunt/web/webUI.py:457-458 | each piece is stripped, none dropped |
| Settings.LoadFavoriteFoods | src/lunchhunt/web/webUI.py:574-578 | a profile without stored foods cannot be loaded; no stored foods give the empty text; stored foods are joined into one text starting with the first, which splits at `;` back into the first food and the others each behind one space |
| Settings.FavoriteFoodsRoundTrip | src/lunchhunt/web/webUI.py:574-578 | loading then saving gives back the foods when each is non-empty, free of `;` and of surrounding whitespace (saving is src/lunchhunt/web/webUI.py:457-459) |
| Settings.SettingsFileName | src/lunchhunt/web/webUI.py:461-462 | the file name ends in `.json` and starts with the given name; a name already ending in `.json` is kept |
| Settings.SettingsFileNameIdempotent | src/lunchhunt/web/webUI.py:461-462 | adding the suffix twice changes nothing more |
| Settings.ExistingProfiles | src/lunchhunt/web/webUI.py:675-678 | the profiles are, in order, exactly the listed files ending in `.json` |
| Settings.ProfileLabel | src/lunchhunt/web/webUI.py:661 | a label is the file name up to its first dot |
| Settings.SavedProfileLabel | src/lunchhunt/web/webUI.py:659-663 | a profile saved under a dot-free name is listed, and labelled with that name |
| Settings.ProfileOptions | src/lunchhunt/web/webUI.py:659-664 | one option per profile, in order, each valued by its file and labelled by the file name up to its first dot |
| Settings.WrapList | src/lunchhunt/web/webUI.py:467-471 | a single choice is stored as a list of one, a list as is |
| Settings.WrapListStable | src/lunchhunt/web/webUI.py:467-471 | wrapping a stored list again changes nothing |
| Settings.SaveSettings | src/lunchhunt/web/webUI.py:456-486 | nothing happens before a click. Afterwards the profile holds the split foods, wrapped lists, all-on alarm days and the `.json` file name; offset, hour, minute and the server settings are copied unchanged |
| Settings.SavedScheduleDays | src/lunchhunt/web/webUI.py:473-499 | saving with no day ticked makes the cron job fail; distinct ticked days are the enabled days of the saved schedule, in order |
| Settings.SaveSchedulesJob | src/lunchhunt/web/webUI.py:473-499 | saving a time and distinct ticked weekdays writes a crontab with one new line, whose schedule reads back as that time on exactly those days, in order; for a space-free profile name the line runs the default interpreter on the default script with the saved `.json` file, logging to the default log |
| Settings.ModifyMensaNames | src/lunchhunt/web/webUI.py:680-684 | one triple per canteen, in registry order: its code, its title-cased city and its hyphen-free display name |
| Settings.MensaNamesAgree | src/lunchhunt/web/webUI.py:680-684 | the page and the scraper show every canteen under the same name |

## Left out

- HTTP requests (`requests.get`, `requests.post`) are not modelled. The fetch is an input that is either a page or a failure. A send is modelled as the payload it would post.
- HTML parsing is not modelled. A page is a sequence of sections, each with heading text and meal texts that are already trimmed.
- `urlparse`/`urlunparse` are not modelled. The parsed scheme, network location and path are inputs. Joining them back is written as `scheme://host/message`.
- `datetime.now()` is a parameter: the time of day in whole seconds.
- TimeWindow.UpdateMenuCategories: offsets are whole minutes; the source also accepts floating-point offsets.
- The clock, subprocess calls to `crontab`, JSON files, the settings directory, logging and `sys.exit` are left out. They are all I/O. Reading the old crontab is an input string; writing the new one is the returned string.
- `load_settings` in `utils/util_functions.py` is left out: it is file and JSON I/O only.
- The Dash page layout and callback wiring are left out, and so are deleting profiles and listing the settings directory. Only the pure normalisation inside the callbacks is modelled.
- `run.py`, the example scripts, `setup.py` and the package `__init__` files are left out. They are orchestration and packaging.
- The other fields `load_settings` on the page copies unchanged are left out. These are categories, canteens, offset, time and server settings: each is a dictionary lookup with a default.
- Text.Upper, Text.Lower, Text.Title: case mapping covers ASCII and the Latin-1 letters, one character to one. `ß`, `ÿ` and `µ` keep their case, where Python upper-cases them to "SS", "Ÿ" and "Μ" (Greek capital mu), and title-cases `ß` to "Ss".
- Cron.CreateCronjobWrites: needs every option string to be a single line. A line break inside one would split the job over several crontab lines.
- Settings.SaveSchedulesJob: needs the profile name to be a single line, for the same reason.
- Cron.Invocation: the field split is stated only for options without spaces. A space inside a path or name gives more fields, and the shell would read it as more words.
- Cron.CreateCronjobWrites: the six invocation fields are stated for space-free options only, for the same reason; Settings.SaveSchedulesJob likewise states the settings-file field only for a space-free profile name.
- Registry.DefaultMensaDictCodes: states the count and the order of the codes. It does not state that all 28 codes are distinct.
- Notify.ListMessageLines: the split-back property needs every line, location and website to be free of line breaks.
- Notify.FormatDictLines: the same holds for the category-message split-back.
- Settings.FavoriteFoodsRoundTrip: needs non-empty, trimmed, `;`-free foods. Otherwise splitting does not give the stored list back.
- Settings.LoadFavoriteFoods: a profile without `favorite_foods` fails to load in the source. The fallback is looked up under `favorite_foods`, but the page's defaults store it as `favorite_food`, and joining `None` raises. The model returns `None` for that case.
- Notify.SendNotification: the title is passed through unchanged; the default title is the constant `DefaultTitle`.

=== FILE: cron.dfy ===
/** The text side of scheduling: the crontab line that runs the notifier on
    the enabled weekdays, adding it to a crontab, and removing lines from
    one. Reading and writing the crontab itself happens outside: the
    current crontab comes in as text ("" when it could not be read) and the
    new one goes out as text. */
module Cron {
  import opened Wrappers
  import opened Seqs
  import opened Text
  import opened Dicts

  const Weekdays: seq<string> := ["monday", "tuesday", "wednesday", "thursday", "friday", "saturday", "sunday"]

  /** A weekday's number in a crontab, Monday = 1 to Sunday = 7. */
  function DayToCron(day: string): (n: Option<string>)
    ensures n.Some? <==> day in Weekdays
  {
    if day == "monday" then Some("1")
    else if day == "tuesday" then Some("2")
    else if day == "wednesday" then Some("3")
    else if day == "thursday" then Some("4")
    else if day == "friday" then Some("5")
    else if day == "saturday" then Some("6")
    else if day == "sunday" then Some("7")
    else None
  }

  /** The weekday a crontab day number stands for. */
  function CronToDay(n: string): Option<string> {
    if n == "1" then Some("monday")
    else if n == "2" then Some("tuesday")
    else if n == "3" then Some("wednesday")
    else if n == "4" then Some("thursday")
    else if n == "5" then Some("friday")
    else if n == "6" then Some("saturday")
    else if n == "7" then Some("sunday")
    else None
  }

  /** The day numbers decode to the weekdays, and are single digits. */
  lemma DayToCronRoundTrip(day: string)
    requires day in Weekdays
    ensures CronToDay(DayToCron(day).value) == Some(day)
    ensures |DayToCron(day).value| == 1 && IsDigit(DayToCron(day).value[0])
  {
  }

  /** The schedule part of the settings: hour and minute (absent when not
      set) and the weekday switches (absent when not set). */
  datatype ScheduleSettings = ScheduleSettings(hour: Option<int>, minute: Option<int>, alarmDays: Option<Dict<string, bool>>)

  datatype CronError =
    | MissingTime       // ValueError: no hour or no minute
    | NoDayEnabled      // ValueError: no weekday switched on
    | UnknownDay(day: string)  // KeyError: an enabled key that is not a weekday

  /** The switches, an absent set counting as none. */
  function AlarmDaysOf(s: ScheduleSettings): Dict<string, bool> {
    if s.alarmDays.Some? then s.alarmDays.value else []
  }

  function IsEnabled(): ((string, bool)) -> bool {
    (p: (string, bool)) => p.1
  }

  /** The enabled days, in the order of the mapping, each once when the
      mapping is a dict. */
  function EnabledDays(days: Dict<string, bool>): (ds: seq<string>)
    ensures forall d :: d in ds <==> (d, true) in days
    ensures IsSubsequence(ds, Keys(days))
    ensures IsDict(days) ==> Distinct(ds)
  {
    var on := Filter(days, IsEnabled());
    KeysSubsequence(on, days);
    assert IsDict(days) ==> Distinct(Keys(on)) by {
      if IsDict(days) { SubsequenceDistinct(Keys(on), Keys(days)); }
    }
    forall d ensures d in Keys(on) <==> (d, true) in days {
      if d in Keys(on) {
        var i :| 0 <= i < |on| && Keys(on)[i] == d;
        assert on[i] in on;
      }
      if (d, true) in days {
        assert (d, true) in on;
        var i :| 0 <= i < |on| && on[i] == (d, true);
        assert Keys(on)[i] == d;
      }
    }
    Keys(on)
  }

  /** The cron number of every day in turn, failing at the first day that
      is not a weekday. */
  function DayNumbers(days: seq<string>): (r: Result<seq<string>, CronError>)
    ensures r.Ok? <==> forall i :: 0 <= i < |days| ==> days[i] in Weekdays
    ensures r.Ok? ==>
      |r.value| == |days| && forall i :: 0 <= i < |days| ==> CronToDay(r.value[i]) == Some(days[i])
    ensures r.Ok? ==> forall i :: 0 <= i < |r.value| ==> |r.value[i]| == 1 && IsDigit(r.value[i][0])
    ensures r.Err? ==>
      exists i :: 0 <= i < |days| && r.error == UnknownDay(days[i]) && days[i] !in Weekdays
                  && forall j :: 0 <= j < i ==> days[j] in Weekdays
  {
    if days == [] then Ok([])
    else
      match DayToCron(days[0])
      case None => Err(UnknownDay(days[0]))
      case Some(n) =>
        DayToCronRoundTrip(days[0]);
        var rest := DayNumbers(days[1..]);
        if rest.Err? then
          var i :| 0 <= i < |days[1..]| && rest.error == UnknownDay(days[1..][i]) && days[1..][i] !in Weekdays
            && forall j :: 0 <= j < i ==> days[1..][j] in Weekdays;
          assert days[i + 1] == days[1..][i];
          assert forall j :: 1 <= j < i + 1 ==> days[j] == days[1..][j - 1];
          rest
        else
          NumbersCons(days, n, rest.value);
          Ok([n] + rest.value)
  }

  /** The step of `DayNumbers` for a first day that is a weekday. */
  lemma NumbersCons(days: seq<string>, n: string, rest: seq<string>)
    requires days != [] && days[0] in Weekdays && CronToDay(n) == Some(days[0]) && |n| == 1 && IsDigit(n[0])
    requires forall i :: 0 <= i < |days[1..]| ==> days[1..][i] in Weekdays
    requires |rest| == |days[1..]|
    requires forall i :: 0 <= i < |rest| ==>
      CronToDay(rest[i]) == Some(days[1..][i]) && |rest[i]| == 1 && IsDigit(rest[i][0])
    ensures forall i :: 0 <= i < |days| ==> days[i] in Weekdays
    ensures |[n] + rest| == |days|
    ensures forall i :: 0 <= i < |days| ==>
      CronToDay(([n] + rest)[i]) == Some(days[i]) && |([n] + rest)[i]| == 1 && IsDigit(([n] + rest)[i][0])
  {
    forall i | 1 <= i < |days|
      ensures days[i] in Weekdays && CronToDay(([n] + rest)[i]) == Some(days[i])
    {
      assert days[i] == days[1..][i - 1];
      assert ([n] + rest)[i] == rest[i - 1];
    }
  }

  /** The schedule of a crontab line: minute, hour, any day of the month,
      any month, and the comma-separated day numbers. */
  function CronTime(minute: int, hour: int, dayNumbers: seq<string>): (t: string)
    ensures ' ' !in Join(dayNumbers, ",") ==>
      SplitOn(t, ' ') == [IntToString(minute), IntToString(hour), "*", "*", Join(dayNumbers, ",")]
  {
    var days := Join(dayNumbers, ",");
    IntToStringPlain(minute);
    IntToStringPlain(hour);
    if ' ' in days then IntToString(minute) + " " + IntToString(hour) + " * * " + days
    else
      CronFields(IntToString(minute), IntToString(hour), days);
      IntToString(minute) + " " + IntToString(hour) + " * * " + days
  }

  /** The optional arguments of `create_cronjob`; an absent or empty one takes
      its default. */
  datatype CronOptions = CronOptions(
    settingsName: Option<string>,
    condaEnvPath: Option<string>,
    logPath: Option<string>,
    scriptPath: Option<string>,
    cronCommand: Option<string>)

  /** The service account's home directory, under which the defaults live. */
  const HomeDir: string := "/home/lunchhunt"
  const DefaultScriptPath: string := HomeDir + "/app/run.py"
  const DefaultCondaEnvPath: string := HomeDir + "/miniconda" + "/envs/lunchhunt" + "/bin/python"
  const DefaultLogPath: string := HomeDir + "/app/lunchhunt.log"

  /** None of the default paths spans more than one line. */
  lemma DefaultsSingleLine()
    ensures !HasLineBreak(DefaultScriptPath) && !HasLineBreak(DefaultCondaEnvPath) && !HasLineBreak(DefaultLogPath)
  {
    assert !HasLineBreak(HomeDir);
    assert !HasLineBreak("/app/run.py");
    NoBreakConcat(HomeDir, "/app/run.py");
    assert !HasLineBreak("/miniconda");
    assert !HasLineBreak("/envs/lunchhunt");
    assert !HasLineBreak("/bin/python");
    NoBreakConcat(HomeDir, "/miniconda");
    NoBreakConcat(HomeDir + "/miniconda", "/envs/lunchhunt");
    NoBreakConcat(HomeDir + "/miniconda" + "/envs/lunchhunt", "/bin/python");
    assert !HasLineBreak("/app/lunchhunt.log");
    NoBreakConcat(HomeDir, "/app/lunchhunt.log");
  }

  /** `value or default` for an optional string. */
  function Or(value: Option<string>, default: string): (r: string)
    ensures value.Some? && value.value != [] ==> r == value.value
    ensures value.None? || value.value == [] ==> r == default
  {
    if value.Some? && value.value != [] then value.value else default
  }

  /** The command line: the given one, or the interpreter running the script
      with the settings name, its output appended to the log. */
  function CronCommand(cronTime: string, opts: CronOptions): (c: string)
    ensures Truthy(opts.cronCommand) ==> c == opts.cronCommand.value
    ensures !Truthy(opts.cronCommand) ==> StartsWith(c, cronTime + " ")
    ensures !Truthy(opts.cronCommand) ==> SplitOn(c, ' ') == SplitOn(cronTime, ' ') + SplitOn(Invocation(opts), ' ')
    ensures (!HasLineBreak(cronTime) && SingleLine(opts.settingsName) && SingleLine(opts.condaEnvPath)
             && SingleLine(opts.logPath) && SingleLine(opts.scriptPath) && SingleLine(opts.cronCommand))
            ==> !HasLineBreak(c)
  {
    if opts.cronCommand.Some? && opts.cronCommand.value != [] then opts.cronCommand.value
    else
      assert !HasLineBreak(" ");
      NoBreakConcat(cronTime, " ");
      NoBreakConcat(cronTime + " ", Invocation(opts));
      assert (cronTime + " " + Invocation(opts))[..|cronTime + " "|] == cronTime + " ";
      SplitOnAppend(cronTime, ' ', Invocation(opts));
      cronTime + " " + Invocation(opts)
  }

  /** What follows the schedule: interpreter, script, settings name and the
      redirection into the log. */
  function Invocation(opts: CronOptions): (inv: string)
    ensures (SingleLine(opts.settingsName) && SingleLine(opts.condaEnvPath) && SingleLine(opts.logPath)
             && SingleLine(opts.scriptPath)) ==> !HasLineBreak(inv)
    ensures (NoSpace(opts.settingsName) && NoSpace(opts.condaEnvPath) && NoSpace(opts.logPath)
             && NoSpace(opts.scriptPath)) ==>
      SplitOn(inv, ' ') == [Or(opts.condaEnvPath, DefaultCondaEnvPath), Or(opts.scriptPath, DefaultScriptPath),
                            Or(opts.settingsName, ""), ">>", Or(opts.logPath, DefaultLogPath), "2>&1"]
  {
    var conda, script := Or(opts.condaEnvPath, DefaultCondaEnvPath), Or(opts.scriptPath, DefaultScriptPath);
    var name, log := Or(opts.settingsName, ""), Or(opts.logPath, DefaultLogPath);
    DefaultsSingleLine();
    assert !HasLineBreak(" ") && !HasLineBreak(" >> ") && !HasLineBreak(" 2>&1");
    NoBreakConcat(conda, " ");
    NoBreakConcat(conda + " ", script);
    NoBreakConcat(conda + " " + script, " ");
    NoBreakConcat(conda + " " + script + " ", name);
    NoBreakConcat(conda + " " + script + " " + name, " >> ");
    NoBreakConcat(conda + " " + script + " " + name + " >> ", log);
    NoBreakConcat(conda + " " + script + " " + name + " >> " + log, " 2>&1");
    DefaultsNoSpace();
    if ' ' in conda || ' ' in script || ' ' in name || ' ' in log then
      conda + " " + script + " " + name + " >> " + log + " 2>&1"
    else
      InvocationFields(conda, script, name, log);
      conda + " " + script + " " + name + " >> " + log + " 2>&1"
  }

  /** An optional string argument that is absent or holds no space. */
  predicate NoSpace(o: Option<string>) {
    o.None? || ' ' !in o.value
  }

  /** No default path holds a space. */
  lemma DefaultsNoSpace()
    ensures ' ' !in DefaultScriptPath && ' ' !in DefaultCondaEnvPath && ' ' !in DefaultLogPath
  {
    assert ' ' !in HomeDir;
    assert ' ' !in "/app/run.py" && ' ' !in "/app/lunchhunt.log";
    assert ' ' !in "/miniconda" && ' ' !in "/envs/lunchhunt" && ' ' !in "/bin/python";
  }

  /** The invocation splits at its spaces into interpreter, script, settings
      name, the append redirection, the log and the error redirection. */
  lemma InvocationFields(conda: string, script: string, name: string, log: string)
    requires ' ' !in conda && ' ' !in script && ' ' !in name && ' ' !in log
    ensures SplitOn(conda + " " + script + " " + name + " >> " + log + " 2>&1", ' ')
      == [conda, script, name, ">>", log, "2>&1"]
  {
    var r2 := name + [' '] + (">>" + [' '] + (log + [' '] + "2>&1"));
    var r1 := script + [' '] + r2;
    RedirectFields(name, log);
    InvocationShape(conda, script, name, log);
    SplitOnCons(script, ' ', r2);
    SplitOnCons(conda, ' ', r1);
  }

  /** The settings name and the two redirections split into their four
      fields. */
  lemma RedirectFields(name: string, log: string)
    requires ' ' !in name && ' ' !in log
    ensures SplitOn(name + [' '] + (">>" + [' '] + (log + [' '] + "2>&1")), ' ') == [name, ">>", log, "2>&1"]
  {
    var r4 := log + [' '] + "2>&1";
    var r3 := ">>" + [' '] + r4;
    var rest := name + [' '] + r3;
    assert ' ' !in "2>&1" && ' ' !in ">>";
    SplitOnNone("2>&1", ' ');
    SplitOnCons(log, ' ', "2>&1");
    SplitOnCons(">>", ' ', r4);
    SplitOnCons(name, ' ', r3);
  }

  /** The invocation regrouped as each field followed by a space and the
      rest. */
  lemma InvocationShape(conda: string, script: string, name: string, log: string)
    ensures conda + " " + script + " " + name + " >> " + log + " 2>&1"
      == conda + [' '] + (script + [' '] + (name + [' '] + (">>" + [' '] + (log + [' '] + "2>&1"))))
  {
    assert " >> " == [' '] + ">>" + [' '];
    assert " 2>&1" == [' '] + "2>&1";
  }

  /** The crontab with a command added. The command becomes the last line;
      the lines before it are those of the old crontab without surrounding
      blank text, or one empty line when the old crontab was blank. No line
      is dropped, even if the command was already there. */
  function AddToCrontab(existing: string, command: string): (t: string)
    ensures !HasLineBreak(command) ==>
      SplitLines(t) == (if IsBlank(existing) then [""] else SplitLines(Strip(existing))) + [command]
  {
    var t := Strip(existing) + "\n" + command + "\n";
    assert !HasLineBreak(command) ==>
      SplitLines(t) == (if IsBlank(existing) then [""] else SplitLines(Strip(existing))) + [command] by {
      if !HasLineBreak(command) {
        StripShape(existing);
        AppendLine(Strip(existing), command);
      }
    }
    t
  }

  /** `create_cronjob`: the new crontab, or the error it raises before
      touching the crontab. */
  function CreateCronjob(schedule: ScheduleSettings, opts: CronOptions, existing: string): (r: Result<string, CronError>)
    ensures schedule.hour.None? || schedule.minute.None? ==> r == Err(MissingTime)
    ensures schedule.hour.Some? && schedule.minute.Some? && EnabledDays(AlarmDaysOf(schedule)) == [] ==>
      r == Err(NoDayEnabled)
    ensures r.Err? && r.error.UnknownDay? ==>
      var enabled := EnabledDays(AlarmDaysOf(schedule));
      exists i :: 0 <= i < |enabled| && r.error.day == enabled[i] && enabled[i] !in Weekdays
        && forall j :: 0 <= j < i ==> enabled[j] in Weekdays
    ensures r.Ok? <==>
      schedule.hour.Some? && schedule.minute.Some? && EnabledDays(AlarmDaysOf(schedule)) != []
      && forall d :: d in EnabledDays(AlarmDaysOf(schedule)) ==> d in Weekdays
    ensures r.Ok? && Truthy(opts.cronCommand) ==> r.value == Strip(existing) + "\n" + opts.cronCommand.value + "\n"
  {
    if schedule.hour.None? || schedule.minute.None? then Err(MissingTime)
    else
      var enabled := EnabledDays(AlarmDaysOf(schedule));
      if enabled == [] then Err(NoDayEnabled)
      else
        match DayNumbers(enabled)
        case Err(e) => Err(e)
        case Ok(numbers) =>
          var command := CronCommand(CronTime(schedule.minute.value, schedule.hour.value, numbers), opts);
          Ok(AddToCrontab(existing, command))
  }

  /** The space-separated fields of a crontab line that runs at `hour`:`minute`
      on `days`: the minute, the hour, two stars, then the day numbers, which
      name the days in order. */
  predicate ScheduleFields(fields: seq<string>, minute: int, hour: int, days: seq<string>) {
    |fields| >= 5
    && IsIntString(fields[0]) && ParseInt(fields[0]) == minute
    && IsIntString(fields[1]) && ParseInt(fields[1]) == hour
    && fields[2] == "*" && fields[3] == "*"
    && var numbers := SplitOn(fields[4], ',');
       |numbers| == |days| && forall i :: 0 <= i < |days| ==> CronToDay(numbers[i]) == Some(days[i])
  }

  /** The schedule of a crontab line reads back: five space-separated fields,
      the first two the minute and the hour, then two stars, then the day
      numbers, which name the enabled days in order. */
  lemma CronTimeRoundTrip(minute: int, hour: int, days: seq<string>)
    requires days != [] && forall i :: 0 <= i < |days| ==> days[i] in Weekdays
    ensures var fields := SplitOn(CronTime(minute, hour, DayNumbers(days).value), ' ');
      |fields| == 5 && ScheduleFields(fields, minute, hour, days)
  {
    var numbers := DayNumbers(days).value;
    forall i | 0 <= i < |numbers| ensures ',' !in numbers[i] && ' ' !in numbers[i] {
      assert numbers[i] == [numbers[i][0]];
    }
    var joined := Join(numbers, ",");
    SplitOnJoin(numbers, ',');
    JoinAvoids(numbers, ",", ' ');
    IntToStringPlain(minute);
    IntToStringPlain(hour);
    ParseIntToString(minute);
    ParseIntToString(hour);
    CronFields(IntToString(minute), IntToString(hour), joined);
  }

  /** The five fields of a schedule split apart at the spaces. */
  lemma CronFields(m: string, h: string, days: string)
    requires ' ' !in m && ' ' !in h && ' ' !in days
    ensures SplitOn(m + " " + h + " * * " + days, ' ') == [m, h, "*", "*", days]
  {
    var r4 := "*" + [' '] + days;
    var r3 := "*" + [' '] + r4;
    var r2 := h + [' '] + r3;
    assert m + " " + h + " * * " + days == m + [' '] + r2;
    SplitOnNone(days, ' ');
    SplitOnCons("*", ' ', days);
    SplitOnCons("*", ' ', r4);
    SplitOnCons(h, ' ', r3);
    SplitOnCons(m, ' ', r2);
  }

  lemma IntToStringPlain(i: int)
    ensures ' ' !in IntToString(i) && !HasLineBreak(IntToString(i))
  {
    var s := IntToString(i);
    if i < 0 {
      assert s == "-" + NatToString(-i);
      assert forall k :: 1 <= k < |s| ==> s[k] == NatToString(-i)[k - 1];
    }
  }

  /** An optional string argument that is absent or a single line. */
  predicate SingleLine(o: Option<string>) {
    o.None? || !HasLineBreak(o.value)
  }

  /** `create_cronjob` keeps the old crontab's lines and adds one line: the
      override command if one is given, otherwise a line whose schedule
      fields read back as the configured minute, hour and enabled days. */
  lemma CreateCronjobWrites(schedule: ScheduleSettings, opts: CronOptions, existing: string)
    requires schedule.hour.Some? && schedule.minute.Some?
    requires var enabled := EnabledDays(AlarmDaysOf(schedule));
      enabled != [] && forall i :: 0 <= i < |enabled| ==> enabled[i] in Weekdays
    requires SingleLine(opts.settingsName) && SingleLine(opts.condaEnvPath) && SingleLine(opts.logPath)
      && SingleLine(opts.scriptPath) && SingleLine(opts.cronCommand)
    ensures CreateCronjob(schedule, opts, existing).Ok?
    ensures var lines := SplitLines(CreateCronjob(schedule, opts, existing).value);
      |lines| >= 1
      && lines[..|lines| - 1] == (if IsBlank(existing) then [""] else SplitLines(Strip(existing)))
      && (Truthy(opts.cronCommand) ==> lines[|lines| - 1] == opts.cronCommand.value)
      && (!Truthy(opts.cronCommand) ==>
            ScheduleFields(SplitOn(lines[|lines| - 1], ' '), schedule.minute.value, schedule.hour.value,
                           EnabledDays(AlarmDaysOf(schedule))))
    ensures var lines := SplitLines(CreateCronjob(schedule, opts, existing).value);
      !Truthy(opts.cronCommand) && NoSpace(opts.settingsName) && NoSpace(opts.condaEnvPath)
      && NoSpace(opts.logPath) && NoSpace(opts.scriptPath) ==>
        var fields := SplitOn(lines[|lines| - 1], ' ');
        |fields| == 11
        && fields[5..] == [Or(opts.condaEnvPath, DefaultCondaEnvPath), Or(opts.scriptPath, DefaultScriptPath),
                           Or(opts.settingsName, ""), ">>", Or(opts.logPath, DefaultLogPath), "2>&1"]
  {
    var enabled := EnabledDays(AlarmDaysOf(schedule));
    var minute, hour := schedule.minute.value, schedule.hour.value;
    var time := CronTime(minute, hour, DayNumbers(enabled).value);
    var command := CronCommand(time, opts);
    CreateCronjobText(schedule, opts, existing);
    CronTimeSingleLine(minute, hour, DayNumbers(enabled).value);
    if !Truthy(opts.cronCommand) {
      CronLineFields(minute, hour, enabled, Invocation(opts));
      if NoSpace(opts.settingsName) && NoSpace(opts.condaEnvPath) && NoSpace(opts.logPath) && NoSpace(opts.scriptPath) {
        CommandFields(minute, hour, enabled, opts);
      }
    }
  }

  /** Without an override and with space-free options, the command line has
      eleven fields: the five of the schedule, then interpreter, script,
      settings name, `>>`, log and `2>&1`. */
  lemma CommandFields(minute: int, hour: int, days: seq<string>, opts: CronOptions)
    requires days != [] && forall i :: 0 <= i < |days| ==> days[i] in Weekdays
    requires !Truthy(opts.cronCommand)
    requires NoSpace(opts.settingsName) && NoSpace(opts.condaEnvPath) && NoSpace(opts.logPath) && NoSpace(opts.scriptPath)
    ensures var fields := SplitOn(CronCommand(CronTime(minute, hour, DayNumbers(days).value), opts), ' ');
      |fields| == 11
      && fields[5..] == [Or(opts.condaEnvPath, DefaultCondaEnvPath), Or(opts.scriptPath, DefaultScriptPath),
                         Or(opts.settingsName, ""), ">>", Or(opts.logPath, DefaultLogPath), "2>&1"]
  {
    CronTimeRoundTrip(minute, hour, days);
  }

  /** The fields of a schedule followed by anything begin with the schedule's
      own. */
  lemma CronLineFields(minute: int, hour: int, days: seq<string>, rest: string)
    requires days != [] && forall i :: 0 <= i < |days| ==> days[i] in Weekdays
    ensures ScheduleFields(SplitOn(CronTime(minute, hour, DayNumbers(days).value) + " " + rest, ' '), minute, hour, days)
  {
    var time := CronTime(minute, hour, DayNumbers(days).value);
    SplitOnAppend(time, ' ', rest);
    CronTimeRoundTrip(minute, hour, days);
    FieldsPrefix(SplitOn(time, ' '), SplitOn(rest, ' '), minute, hour, days);
  }

  lemma FieldsPrefix(fields: seq<string>, more: seq<string>, minute: int, hour: int, days: seq<string>)
    requires ScheduleFields(fields, minute, hour, days)
    ensures ScheduleFields(fields + more, minute, hour, days)
  {
    assert (fields + more)[..5] == fields[..5];
  }

  /** With the time and days set, `create_cronjob` writes the old crontab
      plus the command built from them. */
  lemma CreateCronjobText(schedule: ScheduleSettings, opts: CronOptions, existing: string)
    requires schedule.hour.Some? && schedule.minute.Some?
    requires var enabled := EnabledDays(AlarmDaysOf(schedule));
      enabled != [] && forall i :: 0 <= i < |enabled| ==> enabled[i] in Weekdays
    ensures var numbers := DayNumbers(EnabledDays(AlarmDaysOf(schedule)));
      numbers.Ok?
      && CreateCronjob(schedule, opts, existing)
         == Ok(AddToCrontab(existing, CronCommand(CronTime(schedule.minute.value, schedule.hour.value, numbers.value), opts)))
  {}

  /** The schedule part of a crontab line is a single line. */
  lemma CronTimeSingleLine(minute: int, hour: int, numbers: seq<string>)
    requires forall i :: 0 <= i < |numbers| ==> |numbers[i]| == 1 && IsDigit(numbers[i][0])
    ensures !HasLineBreak(CronTime(minute, hour, numbers))
  {
    forall i | 0 <= i < |numbers| ensures !HasLineBreak(numbers[i]) {
      DigitSingleLine(numbers[i]);
    }
    assert !HasLineBreak(",");
    JoinNoBreak(numbers, ",");
    IntToStringPlain(minute);
    IntToStringPlain(hour);
    ScheduleSingleLine(IntToString(minute), IntToString(hour), Join(numbers, ","));
  }

  lemma DigitSingleLine(n: string)
    requires |n| == 1 && IsDigit(n[0])
    ensures !HasLineBreak(n)
  {
    assert n == [n[0]];
  }

  lemma ScheduleSingleLine(m: string, h: string, d: string)
    requires !HasLineBreak(m) && !HasLineBreak(h) && !HasLineBreak(d)
    ensures !HasLineBreak(m + " " + h + " * * " + d)
  {
    assert !HasLineBreak(" ");
    assert !HasLineBreak(" * * ");
    NoBreakConcat(m, " ");
    NoBreakConcat(m + " ", h);
    NoBreakConcat(m + " " + h, " * * ");
    NoBreakConcat(m + " " + h + " * * ", d);
  }

  /** A separator-joined list holds a character only if a part or the
      separator does. */
  lemma {:induction false} JoinAvoids<T>(parts: seq<seq<T>>, sep: seq<T>, c: T)
    requires c !in sep && forall i :: 0 <= i < |parts| ==> c !in parts[i]
    ensures c !in Join(parts, sep)
    decreases |parts|
  {
    if |parts| > 1 {
      JoinAvoids(parts[1..], sep, c);
    }
  }

  /** One more line after text that does not end in a line break. */
  lemma AppendLine(text: string, command: string)
    requires !HasLineBreak(command)
    requires text != [] ==> !IsLineBreak(text[|text| - 1])
    ensures SplitLines(text + "\n" + command + "\n") == (if text == [] then [""] else SplitLines(text)) + [command]
  {
    var rest := command + "\n";
    AppendAssoc(text + "\n", command, "\n");
    assert rest == command + "\n" + "";
    SplitLinesCons(command, "");
    assert SplitLines(rest) == [command];
    if text == [] {
      assert text + "\n" + rest == [] + "\n" + rest;
      assert !HasLineBreak([]);
      SplitLinesCons([], rest);
    } else {
      SplitLinesAppend(text, rest);
    }
  }

  // Deleting jobs.

  function NotSelected(selected: seq<string>): string -> bool {
    line => Strip(line) !in selected
  }

  /** The lines `delete_cron_job` keeps: those whose stripped text is not
      one of the selected jobs, in order. */
  function KeptLines(existing: string, selected: seq<string>): (kept: seq<string>)
    ensures IsSubsequence(kept, SplitLines(existing))
    ensures forall line :: line in kept <==> line in SplitLines(existing) && Strip(line) !in selected
    ensures forall line :: Count(kept, line) == if Strip(line) in selected then 0 else Count(SplitLines(existing), line)
  {
    Filter(SplitLines(existing), NotSelected(selected))
  }

  /** `delete_cron_job`: the new crontab reads back as exactly the kept
      lines (one empty line when none is kept). */
  function DeleteCronJob(existing: string, selected: seq<string>): (t: string)
    ensures SplitLines(t) == if KeptLines(existing, selected) == [] then [""] else KeptLines(existing, selected)
  {
    var kept := KeptLines(existing, selected);
    if kept == [] then
      assert Join(kept, "\n") + "\n" == [] + "\n" + [];
      assert !HasLineBreak([]);
      SplitLinesCons([], []);
      Join(kept, "\n") + "\n"
    else
      assert forall k :: 0 <= k < |kept| ==> !HasLineBreak(kept[k]) by {
        forall k | 0 <= k < |kept| ensures !HasLineBreak(kept[k]) {
          assert kept[k] in SplitLines(existing);
        }
      }
      SplitLinesJoin(kept);
      Join(kept, "\n") + "\n"
  }

  /** Deleting twice with the same selection changes nothing more. */
  lemma DeleteCronJobIdempotent(existing: string, selected: seq<string>)
    ensures DeleteCronJob(DeleteCronJob(existing, selected), selected) == DeleteCronJob(existing, selected)
  {
    var kept := KeptLines(existing, selected);
    if kept == [] {
      // Nothing kept leaves a lone line break, whose one empty line is
      // either kept or dropped; both write a lone line break again.
      var again := KeptLines(DeleteCronJob(existing, selected), selected);
      assert again == [] || again == [""] by {
        var single: seq<string> := [""];
        assert SplitLines(DeleteCronJob(existing, selected)) == single;
        assert single[1..] == [];
      }
    } else {
      FilterAll(kept, NotSelected(selected));
    }
  }
}

=== FILE: dicts.dfy ===
/** Python dicts, which remember insertion order, as lists of key/value
    pairs. */
module Dicts {
  import opened Wrappers
  import opened Seqs

  type Dict<K, V> = seq<(K, V)>

  /** `list(d.keys())`, also for a list of pairs that is not yet a dict. */
  function Keys<K, V>(d: seq<(K, V)>): seq<K> {
    seq(|d|, i requires 0 <= i < |d| => d[i].0)
  }

  /** The invariant of a dict: no key twice. */
  predicate IsDict<K(==), V>(d: seq<(K, V)>) {
    Distinct(Keys(d))
  }

  /** `d.get(k)` */
  function Get<K(==), V>(d: Dict<K, V>, k: K): (r: Option<V>)
    ensures r.None? <==> k !in Keys(d)
    ensures r.Some? ==> (k, r.value) in d
  {
    if d == [] then None
    else if d[0].0 == k then
      assert Keys(d)[0] == k;
      Some(d[0].1)
    else
      assert Keys(d) == [d[0].0] + Keys(d[1..]);
      Get(d[1..], k)
  }

  /** In a dict, every entry is what `get` finds for its key. */
  lemma {:induction false} GetAt<K, V>(d: Dict<K, V>, i: int)
    requires IsDict(d) && 0 <= i < |d|
    ensures Get(d, d[i].0) == Some(d[i].1)
    decreases i
  {
    if i > 0 {
      assert Keys(d)[0] != Keys(d)[i];
      assert Keys(d[1..]) == Keys(d)[1..];
      GetAt(d[1..], i - 1);
    }
  }

  lemma KeysCons<K, V>(p: (K, V), d: seq<(K, V)>)
    ensures Keys([p] + d) == [p.0] + Keys(d)
  {
  }

  lemma KeysSnoc<K, V>(d: seq<(K, V)>, p: (K, V))
    ensures Keys(d + [p]) == Keys(d) + [p.0]
  {
  }

  /** Dropping entries of a list of pairs drops their keys. */
  lemma {:induction false} KeysSubsequence<K, V>(a: seq<(K, V)>, b: seq<(K, V)>)
    requires IsSubsequence(a, b)
    ensures IsSubsequence(Keys(a), Keys(b))
    decreases |b|
  {
    if a != [] && b != [] {
      KeysCons(a[0], a[1..]);
      KeysCons(b[0], b[1..]);
      assert a == [a[0]] + a[1..] && b == [b[0]] + b[1..];
      if a[0] == b[0] {
        KeysSubsequence(a[1..], b[1..]);
      } else {
        KeysSubsequence(a, b[1..]);
        if a[0].0 == b[0].0 {
          SubsequenceTail(Keys(a), Keys(b[1..]));
        }
      }
    }
  }

  /** `d[k] = v`: an existing key keeps its position and takes the new
      value, a new key goes to the end, nothing else changes. */
  function Put<K(==,!new), V>(d: Dict<K, V>, k: K, v: V): (r: Dict<K, V>)
    ensures Keys(r) == if k in Keys(d) then Keys(d) else Keys(d) + [k]
    ensures Get(r, k) == Some(v)
    ensures forall k' :: k' != k ==> Get(r, k') == Get(d, k')
  {
    if d == [] then [(k, v)]
    else if d[0].0 == k then
      PutFirst(d, k, v);
      [(k, v)] + d[1..]
    else
      var rest := Put(d[1..], k, v);
      PutLater(d, k, v, rest);
      [d[0]] + rest
  }

  /** `Put` on a key that comes first replaces the first pair. */
  lemma PutFirst<K, V>(d: Dict<K, V>, k: K, v: V)
    requires d != [] && d[0].0 == k
    ensures var r := [(k, v)] + d[1..];
      Keys(r) == Keys(d) && k in Keys(d) && Get(r, k) == Some(v)
      && forall k' :: k' != k ==> Get(r, k') == Get(d, k')
  {
    assert [d[0]] + d[1..] == d;
    KeysCons(d[0], d[1..]);
    KeysCons((k, v), d[1..]);
    GetCons(d[0], d[1..]);
    GetCons((k, v), d[1..]);
  }

  /** `Put` on a key that does not come first keeps the first pair and puts
      into the rest. */
  lemma PutLater<K, V>(d: Dict<K, V>, k: K, v: V, rest: Dict<K, V>)
    requires d != [] && d[0].0 != k
    requires Keys(rest) == if k in Keys(d[1..]) then Keys(d[1..]) else Keys(d[1..]) + [k]
    requires Get(rest, k) == Some(v)
    requires forall k' :: k' != k ==> Get(rest, k') == Get(d[1..], k')
    ensures var r := [d[0]] + rest;
      Keys(r) == (if k in Keys(d) then Keys(d) else Keys(d) + [k])
      && Get(r, k) == Some(v)
      && forall k' :: k' != k ==> Get(r, k') == Get(d, k')
  {
    assert [d[0]] + d[1..] == d;
    KeysCons(d[0], d[1..]);
    KeysCons(d[0], rest);
    GetCons(d[0], d[1..]);
    GetCons(d[0], rest);
    assert k in Keys(d) <==> k in Keys(d[1..]);
  }

  /** Looking up in a dict with one more pair in front. */
  lemma GetCons<K, V>(p: (K, V), d: Dict<K, V>)
    ensures forall k :: Get([p] + d, k) == if p.0 == k then Some(p.1) else Get(d, k)
  {
    assert ([p] + d)[1..] == d;
  }

  /** The value the last pair with key `k` carries. */
  function LastValue<K(==), V>(ps: seq<(K, V)>, k: K): Option<V> {
    if ps == [] then None
    else if ps[|ps| - 1].0 == k then Some(ps[|ps| - 1].1)
    else LastValue(ps[..|ps| - 1], k)
  }

  /** `LastValue` by position: the pair at index `i` carries the value, and
      no later pair has key `k`. */
  lemma {:induction false} LastValueAt<K, V>(ps: seq<(K, V)>, k: K)
    ensures LastValue(ps, k).None? <==> k !in Keys(ps)
    ensures LastValue(ps, k).Some? ==>
      exists i :: 0 <= i < |ps| && ps[i] == (k, LastValue(ps, k).value)
        && forall j :: i < j < |ps| ==> ps[j].0 != k
    decreases |ps|
  {
    if ps != [] {
      var init := ps[..|ps| - 1];
      LastValueAt(init, k);
      assert Keys(ps) == Keys(init) + [ps[|ps| - 1].0];
      if ps[|ps| - 1].0 != k && LastValue(init, k).Some? {
        var i :| 0 <= i < |init| && init[i] == (k, LastValue(init, k).value)
          && forall j :: i < j < |init| ==> init[j].0 != k;
        assert ps[i] == init[i];
      }
    }
  }

  /** `{k: v for k, v in ps}` (assignments in order): the keys in order of
      first appearance, each with the value of its last pair. */
  function FromPairs<K(==,!new), V>(ps: seq<(K, V)>): (d: Dict<K, V>)
    ensures IsDict(d)
    ensures Keys(d) == Dedup(Keys(ps))
    ensures forall k :: Get(d, k) == LastValue(ps, k)
  {
    if ps == [] then []
    else
      var init := ps[..|ps| - 1];
      var p := ps[|ps| - 1];
      assert ps == init + [p];
      KeysSnoc(init, p);
      assert Keys(ps)[..|ps| - 1] == Keys(init);
      var d := Put(FromPairs(init), p.0, p.1);
      assert Distinct(Keys(d)) by {
        if p.0 !in Keys(FromPairs(init)) {
          assert Keys(d) == Keys(FromPairs(init)) + [p.0];
        }
      }
      d
  }

  /** Lifts a condition on keys to a condition on entries. */
  function OnKey<K, V>(keep: K -> bool): ((K, V)) -> bool {
    (p: (K, V)) => keep(p.0)
  }

  /** Keeping the entries whose key passes a test keeps exactly the keys
      that pass it, in their order. */
  lemma {:induction false} KeysFilter<K(!new), V(!new)>(ps: seq<(K, V)>, keep: K -> bool)
    ensures Keys(Filter(ps, OnKey(keep))) == Filter(Keys(ps), keep)
    decreases |ps|
  {
    if ps != [] {
      var f := OnKey(keep);
      KeysFilter(ps[1..], keep);
      var ks := Keys(ps);
      assert ks == [ps[0].0] + Keys(ps[1..]);
      assert ks[1..] == Keys(ps[1..]);
      assert f(ps[0]) == keep(ks[0]);
      var rest := Filter(ps[1..], f);
      if f(ps[0]) {
        assert Filter(ps, f) == [ps[0]] + rest;
        KeysCons(ps[0], rest);
        assert Filter(ks, keep) == [ks[0]] + Filter(ks[1..], keep);
      } else {
        assert Filter(ps, f) == rest;
        assert Filter(ks, keep) == Filter(ks[1..], keep);
      }
    }
  }
}

=== FILE: extract.dfy ===
/** Reading a canteen page: its meal sections, their category names, and
    the dishes of the configured categories. The parsed page is abstract:
    a section is its heading text and the texts of its meals, each already
    stripped of surrounding whitespace. */
module Extract {
  import opened Wrappers
  import opened Seqs
  import opened Text
  import opened Dicts

  datatype Section = Section(heading: string, items: seq<string>)

  /** Category -> dishes, in the order the page lists the categories. */
  type Menu = Dict<string, seq<string>>

  const UnknownCategory: string := "Unknown Category"

  /** Every dish is written as a bullet point. */
  const Bullet: string := "\U{2022} "

  /** The name of a section: its heading, or `"Unknown Category"` when the
      heading has no text. */
  function CategoryName(s: Section): (name: string)
    ensures name != []
    ensures s.heading != [] ==> name == s.heading
    ensures s.heading == [] ==> name == UnknownCategory
  {
    if s.heading == [] then UnknownCategory else s.heading
  }

  /** `_get_meal_categories`: the sections with their names, or nothing when
      the page has no section. */
  function GetMealCategories(sections: seq<Section>): (r: Option<(seq<Section>, seq<string>)>)
    ensures r.None? <==> sections == []
    ensures r.Some? ==> r.value.0 == sections && |r.value.1| == |sections|
    ensures r.Some? ==> forall i :: 0 <= i < |sections| ==>
      r.value.1[i] != [] && (sections[i].heading != [] ==> r.value.1[i] == sections[i].heading)
      && (sections[i].heading == [] ==> r.value.1[i] == UnknownCategory)
  {
    var names := seq(|sections|, i requires 0 <= i < |sections| => CategoryName(sections[i]));
    if sections != [] && names != [] then Some((sections, names)) else None
  }

  /** The dishes of one section: one bulleted dish per meal. */
  function Dishes(s: Section): (dishes: seq<string>)
    ensures |dishes| == |s.items|
    ensures forall i :: 0 <= i < |dishes| ==> StartsWith(dishes[i], Bullet) && dishes[i][|Bullet|..] == s.items[i]
  {
    seq(|s.items|, i requires 0 <= i < |s.items| => Bullet + s.items[i])
  }

  /** Sections paired with names position by position, each section already
      turned into its dishes; the longer list is cut to the shorter. */
  function ZipDishes(sections: seq<Section>, names: seq<string>): (ps: seq<(string, seq<string>)>)
    ensures |ps| == if |sections| < |names| then |sections| else |names|
    ensures Keys(ps) == names[..|ps|]
  {
    var n := if |sections| < |names| then |sections| else |names|;
    seq(n, i requires 0 <= i < n => (names[i], Dishes(sections[i])))
  }

  function InCategories(cats: seq<string>): string -> bool {
    c => c in cats
  }

  /** `_get_menu_by_category`: for every section whose name is a configured
      category, that category with the section's dishes; nothing when either
      list is missing or empty, or when no name is configured. */
  function GetMenuByCategory(sections: Option<seq<Section>>, names: Option<seq<string>>, menuCategories: seq<string>)
    : (r: Option<Menu>)
    ensures r.None? <==>
      sections.None? || sections.value == [] || names.None? || names.value == []
      || forall i :: 0 <= i < |ZipDishes(sections.value, names.value)| ==> names.value[i] !in menuCategories
    ensures r.Some? ==> IsDict(r.value) && r.value != []
    ensures r.Some? ==> forall k :: k in Keys(r.value) ==> k in menuCategories
    ensures r.Some? ==>
      Keys(r.value) == Dedup(Filter(names.value[..|ZipDishes(sections.value, names.value)|], InCategories(menuCategories)))
  {
    if sections.None? || sections.value == [] || names.None? || names.value == [] then None
    else
      var ps := ZipDishes(sections.value, names.value);
      var keep := InCategories(menuCategories);
      var d := FromPairs(Filter(ps, OnKey(keep)));
      KeysFilter(ps, keep);
      assert Keys(d) == Dedup(Filter(names.value[..|ps|], keep));
      assert d == [] <==> forall i :: 0 <= i < |ps| ==> names.value[i] !in menuCategories by {
        if d == [] {
          forall i | 0 <= i < |ps| ensures names.value[i] !in menuCategories {
            assert names.value[..|ps|][i] == names.value[i];
            assert names.value[i] !in Filter(names.value[..|ps|], keep);
          }
        } else {
          var k := Keys(d)[0];
          assert k in Filter(names.value[..|ps|], keep);
        }
      }
      if d == [] then None else Some(d)
  }

  /** What a category of the menu holds: the dishes of the last section with
      that name. */
  lemma MenuEntry(sections: seq<Section>, names: seq<string>, menuCategories: seq<string>, k: string)
    requires GetMenuByCategory(Some(sections), Some(names), menuCategories).Some?
    requires k in Keys(GetMenuByCategory(Some(sections), Some(names), menuCategories).value)
    ensures var n := |ZipDishes(sections, names)|;
      exists i :: 0 <= i < n && names[i] == k
        && Get(GetMenuByCategory(Some(sections), Some(names), menuCategories).value, k) == Some(Dishes(sections[i]))
        && forall j :: i < j < n ==> names[j] != k
  {
    var ps := ZipDishes(sections, names);
    MenuFromPairs(sections, names, menuCategories);
    var m := LastEntry(ps, InCategories(menuCategories), k);
    assert names[m] == ps[m].0 && ps[m].1 == Dishes(sections[m]);
    forall j | m < j < |ps| ensures names[j] != k {
      assert ps[j].0 == names[j];
    }
  }

  /** In the dict built from the pairs whose key passes `keep`, a key holds
      the value of its last pair. */
  lemma LastEntry(ps: seq<(string, seq<string>)>, keep: string -> bool, k: string) returns (m: int)
    requires k in Keys(FromPairs(Filter(ps, OnKey(keep))))
    ensures 0 <= m < |ps| && ps[m].0 == k
    ensures Get(FromPairs(Filter(ps, OnKey(keep))), k) == Some(ps[m].1)
    ensures forall j :: m < j < |ps| ==> ps[j].0 != k
  {
    var f := Filter(ps, OnKey(keep));
    var i := LastIndex(f, k);
    FilterPasses(ps, OnKey(keep), i);
    LastInFilter(ps, OnKey(keep), i, k);
    m :| 0 <= m < |ps| && ps[m] == f[i] && forall j :: m < j < |ps| && OnKey(keep)(ps[j]) ==> ps[j].0 != k;
    assert keep(k) by { assert OnKey(keep)(ps[m]) == keep(ps[m].0); }
    forall j | m < j < |ps| ensures ps[j].0 != k {
      assert OnKey(keep)(ps[j]) == keep(ps[j].0);
    }
  }

  /** The position of the last pair with key `k`, whose value the dict built
      from the pairs holds. */
  lemma LastIndex(f: seq<(string, seq<string>)>, k: string) returns (i: int)
    requires k in Keys(FromPairs(f))
    ensures 0 <= i < |f| && f[i].0 == k
    ensures Get(FromPairs(f), k) == Some(f[i].1)
    ensures forall j :: i < j < |f| ==> f[j].0 != k
  {
    LastValueAt(f, k);
    i :| 0 <= i < |f| && f[i] == (k, LastValue(f, k).value) && forall j :: i < j < |f| ==> f[j].0 != k;
  }

  /** Every entry of a filtered list passes the filter. */
  lemma FilterPasses<T(!new)>(s: seq<T>, p: T -> bool, i: int)
    requires 0 <= i < |Filter(s, p)|
    ensures p(Filter(s, p)[i])
  {
    assert Filter(s, p)[i] in Filter(s, p);
  }

  /** A found menu is the dict built from the configured pairs. */
  lemma MenuFromPairs(sections: seq<Section>, names: seq<string>, menuCategories: seq<string>)
    ensures GetMenuByCategory(Some(sections), Some(names), menuCategories).Some? ==>
      GetMenuByCategory(Some(sections), Some(names), menuCategories).value
      == FromPairs(Filter(ZipDishes(sections, names), OnKey(InCategories(menuCategories))))
  {
  }

  /** The entry at position `i` of a filtered list is an entry of the
      original list after which only filtered-out entries or entries with
      other keys follow, when none follows it in the filtered list. */
  lemma {:induction false} LastInFilter<K(!new), V(!new)>(ps: seq<(K, V)>, p: ((K, V)) -> bool, i: int, k: K)
    requires 0 <= i < |Filter(ps, p)| && Filter(ps, p)[i].0 == k
    requires forall j :: i < j < |Filter(ps, p)| ==> Filter(ps, p)[j].0 != k
    ensures exists m :: (0 <= m < |ps| && ps[m] == Filter(ps, p)[i]
      && forall j :: m < j < |ps| && p(ps[j]) ==> ps[j].0 != k)
    decreases |ps|
  {
    var f := Filter(ps, p);
    var init := ps[..|ps| - 1];
    var x := ps[|ps| - 1];
    assert ps == init + [x];
    FilterSnoc(init, x, p);
    var fi := Filter(init, p);
    if p(x) && i == |f| - 1 {
      assert ps[|ps| - 1] == f[i];
    } else {
      assert f == fi + (if p(x) then [x] else []);
      assert p(x) ==> f[|f| - 1] == x && x.0 != k;
      assert i < |fi| && fi[i] == f[i];
      forall j | i < j < |fi| ensures fi[j].0 != k {
        assert fi[j] == f[j];
      }
      LastInFilter(init, p, i, k);
      var m :| 0 <= m < |init| && init[m] == fi[i] && forall j :: m < j < |init| && p(init[j]) ==> init[j].0 != k;
      LiftLast(init, x, p, k, m);
    }
  }

  /** A witness for the list without its last entry is one for the whole
      list when that entry passes only with another key. */
  lemma LiftLast<K, V>(init: seq<(K, V)>, x: (K, V), p: ((K, V)) -> bool, k: K, m: int)
    requires 0 <= m < |init|
    requires forall j :: m < j < |init| && p(init[j]) ==> init[j].0 != k
    requires p(x) ==> x.0 != k
    ensures (init + [x])[m] == init[m]
    ensures forall j :: m < j < |init + [x]| && p((init + [x])[j]) ==> (init + [x])[j].0 != k
  {
    var ps := init + [x];
    forall j | m < j < |ps| && p(ps[j]) ensures ps[j].0 != k {
      if j < |init| {
        assert ps[j] == init[j];
      }
    }
  }
}

=== FILE: notifier.dfy ===
/** The push notifier: the server address it posts to, the text a message
    becomes, and the decision whether and with which priority to send it.
    The HTTP request itself is not modelled; sending yields the payload the
    notifier would post. */
module Notify {
  import opened Wrappers
  import opened Seqs
  import opened Text
  import opened Dicts

  /** The parts of `urlparse(server_url)` the notifier looks at. How a URL
      string is split into them is left to the parser. */
  datatype ParsedUrl = ParsedUrl(scheme: string, netloc: string, path: string)

  const MessagePath: string := "/message"
  const DefaultPriority: int := 5
  const DefaultTitle: string := "\U{203C}\U{FE0F}LunchHunt\U{203C}\U{FE0F}"

  datatype Notifier = Notifier(serverUrl: string, token: string, priority: int)

  /** The scheme the notifier uses, whatever the given URL said. */
  function Scheme(secure: bool): (scheme: string)
    ensures scheme == "https" <==> secure
    ensures scheme == "http" <==> !secure
  {
    if secure then "https" else "http"
  }

  /** The host kept from the parsed URL: without a scheme the whole input
      is taken as the host; with one, the netloc, or the path when the
      netloc is empty. */
  function Host(parsed: ParsedUrl): (host: string)
    ensures host == parsed.netloc || host == parsed.path
    ensures parsed.scheme == [] || parsed.netloc == [] ==> host == parsed.path
    ensures parsed.scheme != [] && parsed.netloc != [] ==> host == parsed.netloc
  {
    if parsed.scheme == [] then parsed.path
    else if parsed.netloc != [] then parsed.netloc
    else parsed.path
  }

  /** The scheme, the host and the message endpoint put back together into
      a URL, with no parameters, query or fragment. */
  function ServerUrl(parsed: ParsedUrl, secure: bool): (url: string)
    ensures StartsWith(url, Scheme(secure) + "://")
    ensures EndsWith(url, MessagePath)
    ensures |url| == |Scheme(secure)| + 3 + |Host(parsed)| + |MessagePath|
    ensures url[|Scheme(secure)| + 3..|url| - |MessagePath|] == Host(parsed)
  {
    var url := Scheme(secure) + "://" + Host(parsed) + MessagePath;
    assert url[..|Scheme(secure)| + 3] == Scheme(secure) + "://";
    url
  }

  /** The notifier's constructor. */
  function NewNotifier(parsed: ParsedUrl, token: string, priority: int, secure: bool): (n: Notifier)
    ensures n.serverUrl == ServerUrl(parsed, secure)
    ensures n.token == token && n.priority == priority
  {
    Notifier(ServerUrl(parsed, secure), token, priority)
  }

  /** Normalising settles after one step: a built address, parsed again
      into a scheme and the same host, normalises to itself, and the
      scheme it carried has no say. */
  lemma NormalizeStable(parsed: ParsedUrl, again: ParsedUrl, secure: bool)
    requires again.scheme != [] && again.netloc == Host(parsed) && Host(parsed) != []
    ensures Host(again) == Host(parsed)
    ensures ServerUrl(again, secure) == ServerUrl(parsed, secure)
  {
  }

  // Message text.

  /** What `send_notification` accepts. */
  datatype Message =
    | Single(text: string)
    | Many(lines: seq<string>)
    | ByCategory(groups: Dict<string, seq<string>>)
    | Unsupported

  /** The optional location or website as a line of its own. */
  function OptLine(o: Option<string>): (r: seq<string>)
    ensures |r| <= 1
    ensures r == [] <==> !Truthy(o)
    ensures r != [] ==> r[0] == o.value
  {
    if Truthy(o) then [o.value] else []
  }

  /** The lines of a list message: the location first and the website last,
      each when truthy; the caller's lines are not changed. */
  function Framed(location: Option<string>, website: Option<string>, lines: seq<string>): (r: seq<string>)
    ensures |r| == |OptLine(location)| + |lines| + |OptLine(website)|
    ensures forall i :: 0 <= i < |lines| ==> r[|OptLine(location)| + i] == lines[i]
    ensures Truthy(location) ==> r[0] == location.value
    ensures Truthy(website) ==> r[|r| - 1] == website.value
  {
    OptLine(location) + lines + OptLine(website)
  }

  /** The list rule: the framed lines joined with newlines. */
  function ListMessage(location: Option<string>, website: Option<string>, lines: seq<string>): (r: string)
    ensures Truthy(location) ==> StartsWith(r, location.value)
    ensures Truthy(website) ==> EndsWith(r, website.value)
  {
    var framed := Framed(location, website, lines);
    if framed == [] then []
    else
      JoinFirst(framed, "\n");
      JoinLast(framed, "\n");
      Join(framed, "\n")
  }

  predicate NoBreak(s: string) {
    '\n' !in s
  }

  /** Without newlines inside the lines, the message splits back into
      exactly the framed lines. */
  lemma ListMessageLines(location: Option<string>, website: Option<string>, lines: seq<string>)
    requires Framed(location, website, lines) != []
    requires forall i :: 0 <= i < |Framed(location, website, lines)| ==> NoBreak(Framed(location, website, lines)[i])
    ensures SplitOn(ListMessage(location, website, lines), '\n') == Framed(location, website, lines)
  {
    SplitOnJoin(Framed(location, website, lines), '\n');
  }

  /** A category heading's text: the upper-cased category, followed by the
      location when it is truthy. */
  function HeaderText(category: string, location: Option<string>): (h: string)
    ensures StartsWith(h, Upper(category))
    ensures !Truthy(location) ==> h == Upper(category)
    ensures Truthy(location) ==> EndsWith(h, " - " + location.value)
    ensures Truthy(location) ==> |h| == |Upper(category)| + 3 + |location.value|
  {
    if Truthy(location) then
      var h := Upper(category) + " - " + location.value;
      assert h[..|Upper(category)|] == Upper(category);
      assert h[|h| - |" - " + location.value|..] == " - " + location.value;
      h
    else Upper(category)
  }

  /** The parts `__format_dict_message` collects, category by category:
      the heading with a newline in front, then the dishes as they are. */
  function DictParts(location: Option<string>, groups: Dict<string, seq<string>>): (r: seq<string>)
    ensures r == [] <==> groups == []
    decreases |groups|
  {
    if groups == [] then []
    else ["\n" + HeaderText(groups[0].0, location)] + groups[0].1 + DictParts(location, groups[1..])
  }

  /** `__format_dict_message`. */
  function FormatDictMessage(location: Option<string>, website: Option<string>, groups: Dict<string, seq<string>>)
    : (r: string)
    ensures groups != [] ==> StartsWith(r, "\n" + HeaderText(groups[0].0, location))
    ensures Truthy(website) ==> EndsWith(r, website.value)
    ensures groups == [] && !Truthy(website) ==> r == []
  {
    var parts := DictParts(location, groups) + OptLine(website);
    if parts == [] then []
    else
      JoinFirst(parts, "\n");
      JoinLast(parts, "\n");
      assert groups != [] ==> parts[0] == "\n" + HeaderText(groups[0].0, location);
      Join(parts, "\n")
  }

  /** The lines of a category message, written independently: per category
      an empty line, the heading, then the dishes. */
  function DictLines(location: Option<string>, groups: Dict<string, seq<string>>): (r: seq<string>)
    ensures |r| >= 2 * |groups|
    ensures r == [] <==> groups == []
    decreases |groups|
  {
    if groups == [] then []
    else ["", HeaderText(groups[0].0, location)] + groups[0].1 + DictLines(location, groups[1..])
  }

  /** One category's step of `DictPartsAsLines`, over arbitrary rests. */
  lemma PartsStep(h: string, dishes: seq<string>, parts: seq<string>, lines: seq<string>, tail: seq<string>)
    requires (parts + tail == []) == (lines + tail == [])
    requires Join(parts + tail, "\n") == Join(lines + tail, "\n")
    ensures Join(["\n" + h] + dishes + parts + tail, "\n") == Join([[], h] + dishes + lines + tail, "\n")
  {
    var after := dishes + (parts + tail);
    var after' := dishes + (lines + tail);
    JoinSameTail(dishes, parts + tail, lines + tail, "\n");
    JoinSameTail([[], h], after, after', "\n");
    SepHead(h, after, "\n");
    AppendAssoc(dishes, parts, tail);
    AppendAssoc(["\n" + h], dishes + parts, tail);
    AppendAssoc(["\n" + h], dishes, parts);
    AppendAssoc(dishes, lines, tail);
    AppendAssoc([[], h], dishes + lines, tail);
    AppendAssoc([[], h], dishes, lines);
  }

  lemma {:induction false} DictPartsAsLines(location: Option<string>, groups: Dict<string, seq<string>>, tail: seq<string>)
    ensures Join(DictParts(location, groups) + tail, "\n") == Join(DictLines(location, groups) + tail, "\n")
    decreases |groups|
  {
    if groups != [] {
      DictPartsAsLines(location, groups[1..], tail);
      PartsStep(HeaderText(groups[0].0, location), groups[0].1,
                DictParts(location, groups[1..]), DictLines(location, groups[1..]), tail);
    }
  }

  /** The formatted message is the newline-join of the independent line
      list; without newlines inside the parts it splits back into it. */
  lemma FormatDictLines(location: Option<string>, website: Option<string>, groups: Dict<string, seq<string>>)
    ensures FormatDictMessage(location, website, groups) == Join(DictLines(location, groups) + OptLine(website), "\n")
    ensures (groups != [] || Truthy(website))
      && (forall i :: 0 <= i < |DictLines(location, groups) + OptLine(website)| ==>
            NoBreak((DictLines(location, groups) + OptLine(website))[i]))
      ==> SplitOn(FormatDictMessage(location, website, groups), '\n') == DictLines(location, groups) + OptLine(website)
  {
    DictPartsAsLines(location, groups, OptLine(website));
    var lines := DictLines(location, groups) + OptLine(website);
    if groups != [] || Truthy(website) {
      if forall i :: 0 <= i < |lines| ==> NoBreak(lines[i]) {
        SplitOnJoin(lines, '\n');
      }
    }
  }

  /** `{"Mittagessen": ["• Gulasch"]}` formats as a blank line, the
      upper-cased heading and the dish. */
  lemma MittagessenExample()
    ensures FormatDictMessage(None, None, [("Mittagessen", ["\U{2022} Gulasch"])])
      == "\nMITTAGESSEN\n\U{2022} Gulasch"
  {
    var groups := [("Mittagessen", ["\U{2022} Gulasch"])];
    var head := "\nMITTAGESSEN";
    assert Upper("Mittagessen") == "MITTAGESSEN";
    assert "\n" + HeaderText("Mittagessen", None) == head;
    assert DictParts(None, groups[1..]) == [];
    assert DictParts(None, groups) + OptLine(None) == [head, "\U{2022} Gulasch"];
    assert [head, "\U{2022} Gulasch"][1..] == ["\U{2022} Gulasch"];
    assert FormatDictMessage(None, None, groups) == Join([head, "\U{2022} Gulasch"], "\n");
    assert Join([head, "\U{2022} Gulasch"], "\n") == head + "\n" + "\U{2022} Gulasch";
  }

  /** `__parse_message_input`. */
  function ParseMessageInput(location: Option<string>, website: Option<string>, message: Message): (r: string)
    ensures message.Many? ==> r == ListMessage(location, website, message.lines)
    ensures message.ByCategory? ==> r == FormatDictMessage(location, website, message.groups)
    ensures message.Unsupported? ==> r == []
  {
    match message
    case Single(text) => ListMessage(location, website, [text])
    case Many(lines) => ListMessage(location, website, lines)
    case ByCategory(groups) => FormatDictMessage(location, website, groups)
    case Unsupported => []
  }

  /** A string is sent as a list of one line. */
  lemma SingleIsOneLine(location: Option<string>, website: Option<string>, text: string)
    ensures ParseMessageInput(location, website, Single(text)) == ParseMessageInput(location, website, Many([text]))
    ensures ParseMessageInput(None, None, Single(text)) == text
  {
    assert Framed(None, None, [text]) == [text];
  }

  // Sending.

  /** What would be posted to the server. */
  datatype Payload = Payload(url: string, token: string, title: Option<string>, message: string, priority: int)

  /** An absent or zero priority falls back to the notifier's own. */
  function EffectivePriority(n: Notifier, priority: Option<int>): (p: int)
    ensures priority.Some? && priority.value != 0 ==> p == priority.value
    ensures priority.None? || priority.value == 0 ==> p == n.priority
  {
    if priority.Some? && priority.value != 0 then priority.value else n.priority
  }

  /** `send_notification`: nothing is sent when the formatted text is empty
      or whitespace; otherwise the payload carries the text, the title and
      the effective priority. */
  function SendNotification(n: Notifier, message: Message, website: Option<string>, location: Option<string>,
                            title: Option<string>, priority: Option<int>): (r: Option<Payload>)
    ensures r.None? <==> IsBlank(ParseMessageInput(location, website, message))
    ensures r.Some? ==> r.value.message == ParseMessageInput(location, website, message)
    ensures r.Some? ==> r.value.url == n.serverUrl && r.value.token == n.token && r.value.title == title
    ensures r.Some? ==> r.value.priority == EffectivePriority(n, priority)
  {
    var full := ParseMessageInput(location, website, message);
    StripShape(full);
    if Strip(full) == [] then None
    else Some(Payload(n.serverUrl, n.token, title, full, EffectivePriority(n, priority)))
  }

  /** A list message is skipped exactly when all its framed lines are
      whitespace. */
  lemma BlankListSkipped(n: Notifier, lines: seq<string>, website: Option<string>, location: Option<string>,
                         title: Option<string>, priority: Option<int>)
    ensures SendNotification(n, Many(lines), website, location, title, priority).None? <==>
      forall i :: 0 <= i < |Framed(location, website, lines)| ==> IsBlank(Framed(location, website, lines)[i])
  {
    JoinBlank(Framed(location, website, lines), "\n");
  }

  /** A category message with at least one category is always sent: its
      headings are not whitespace. */
  lemma CategoriesAlwaysSent(n: Notifier, groups: Dict<string, seq<string>>, website: Option<string>,
                             location: Option<string>, title: Option<string>, priority: Option<int>)
    requires groups != [] && !IsBlank(groups[0].0)
    ensures SendNotification(n, ByCategory(groups), website, location, title, priority).Some?
  {
    var parts := DictParts(location, groups) + OptLine(website);
    HeadingNotBlank(groups[0].0, location);
    assert parts[0] == "\n" + HeaderText(groups[0].0, location);
    JoinBlank(parts, "\n");
    assert FormatDictMessage(location, website, groups) == Join(parts, "\n");
  }

  /** A heading line is not whitespace when its category is not. */
  lemma HeadingNotBlank(category: string, location: Option<string>)
    requires !IsBlank(category)
    ensures !IsBlank("\n" + HeaderText(category, location))
  {
    var h := HeaderText(category, location);
    var k :| 0 <= k < |category| && !IsSpace(category[k]);
    CaseMapCased(category[k]);
    assert h[k] == Upper(category)[k] == UpperChar(category[k]);
    assert ("\n" + h)[k + 1] == h[k];
  }

  /** Nothing to say, nothing sent. */
  lemma UnsupportedSkipped(n: Notifier, website: Option<string>, location: Option<string>,
                           title: Option<string>, priority: Option<int>)
    ensures SendNotification(n, Unsupported, website, location, title, priority).None?
    ensures SendNotification(n, ByCategory([]), None, location, title, priority).None?
  {
  }

  /** With a non-zero default, the payload never carries priority 0. */
  lemma PriorityNonZero(n: Notifier, priority: Option<int>)
    requires n.priority != 0
    ensures EffectivePriority(n, priority) != 0
    ensures EffectivePriority(n, Some(0)) == n.priority
  {
  }

  /** With every default left in place, a message that is sent carries the
      default title and the default priority 5. */
  lemma DefaultsSent(parsed: ParsedUrl, token: string, secure: bool, message: Message,
                     website: Option<string>, location: Option<string>)
    requires !IsBlank(ParseMessageInput(location, website, message))
    ensures var r := SendNotification(NewNotifier(parsed, token, DefaultPriority, secure), message, website, location,
                                      Some(DefaultTitle), None);
      r.Some? && r.value.title == Some(DefaultTitle) && r.value.priority == 5
  {
  }
}

=== FILE: registry.dfy ===
/** The location registry: which canteen code stands for which region and
    URL slug, the source address of a canteen, and its display name. */
module Registry {
  import opened Wrappers
  import opened Seqs
  import opened Text
  import opened Dicts

  /** Canteen code -> (region, slug), in the order the source lists them. */
  type MensaDict = Dict<string, (string, string)>

  /** The 28 canteens of the Thuringian student services. */
  const DefaultMensaDict: MensaDict := [
    // Erfurt
    ("MNS", ("erfurt", "mensa-nordhaeuser-strasse")),
    ("MAS", ("erfurt", "mensa-altonaer-strasse")),
    ("CH7", ("erfurt", "cafeteria-hoersaal-7")),
    ("GBX", ("erfurt", "glasbox")),
    ("CSL", ("erfurt", "cafeteria-schlueterstrasse")),
    ("CLS", ("erfurt", "cafeteria-leipziger-strasse")),
    // Jena
    ("EAP", ("jena", "mensa-ernst-abbe-platz")),
    ("CZP", ("jena", "mensa-carl-zeiss-promenade")),
    ("PW", ("jena", "mensa-philosophenweg")),
    ("UHG", ("jena", "mensa-uni-hauptgebaeude")),
    ("MVRS", ("jena", "moritz-von-rohr-strasse")),
    ("CCZ", ("jena", "cafeteria-carl-zeiss-strasse-3")),
    ("CZR", ("jena", "cafeteria-zur-rosen")),
    ("CBIB", ("jena", "cafeteria-bibliothek")),
    // Weimar
    ("MAP", ("weimar", "mensa-am-park")),
    ("CAH", ("weimar", "cafeteria-am-horn")),
    ("CMP", ("weimar", "cafeteria-mensa-am-park")),
    // Ilmenau
    ("MEH", ("ilmenau", "mensa-ehrenberg")),
    ("CME", ("ilmenau", "cafeteria-mensa-ehrenberg")),
    ("CMI", ("ilmenau", "cafeteria-mini")),
    ("NANO", ("ilmenau", "nanoteria")),
    ("TWC", ("ilmenau", "tower-cafe")),
    ("CRB", ("ilmenau", "cafeteria-roentgenbau")),
    // Schmalkalden
    ("MBH", ("schmalkalden", "mensa-blechhammer")),
    ("CMB", ("schmalkalden", "cafeteria-mensa-blechhammer")),
    // Gera
    ("MWF", ("gera", "mensa-weg-der-freundschaft")),
    // Eisenach
    ("MAW", ("eisenach", "mensa-am-wartenberg")),
    // Nordhausen
    ("MWH", ("nordhausen", "mensa-weinberghof"))
  ]

  /** The codes of the default registry, in order. */
  const DefaultCodes: seq<string> := ["MNS", "MAS", "CH7", "GBX", "CSL", "CLS", "EAP", "CZP", "PW", "UHG", "MVRS",
    "CCZ", "CZR", "CBIB", "MAP", "CAH", "CMP", "MEH", "CME", "CMI", "NANO", "TWC", "CRB", "MBH", "CMB", "MWF", "MAW",
    "MWH"]

  /** The default registry lists 28 canteens under the codes above. */
  lemma DefaultMensaDictCodes()
    ensures |DefaultMensaDict| == 28
    ensures Keys(DefaultMensaDict) == DefaultCodes
  {
    forall i | 0 <= i < 28 ensures DefaultMensaDict[i].0 == DefaultCodes[i] {
    }
  }

  /** The source address of a canteen: `""` for a code the registry does not
      know, otherwise `base/location/slug.html`. */
  function BuildMensaUrl(baseUrl: string, d: MensaDict, code: string, location: string): (url: string)
    ensures url == [] <==> code !in Keys(d)
    ensures code in Keys(d) ==> StartsWith(url, baseUrl + "/" + location + "/") && EndsWith(url, ".html")
  {
    match Get(d, code)
    case None => ""
    case Some(entry) => baseUrl + "/" + location + "/" + entry.1 + ".html"
  }

  /** The path of a built address gives back the location and the slug it
      was built from, when neither holds a `/`. */
  lemma MensaUrlPath(baseUrl: string, d: MensaDict, code: string, location: string)
    requires code in Keys(d) && '/' !in location && '/' !in Get(d, code).value.1
    ensures var url := BuildMensaUrl(baseUrl, d, code, location);
      |baseUrl| + 1 <= |url| - 5
      && url[..|baseUrl|] == baseUrl
      && SplitOn(url[|baseUrl| + 1..|url| - 5], '/') == [location, Get(d, code).value.1]
  {
    UrlPath(baseUrl, location, Get(d, code).value.1);
  }

  lemma UrlPath(baseUrl: string, location: string, slug: string)
    requires '/' !in location && '/' !in slug
    ensures var url := baseUrl + "/" + location + "/" + slug + ".html";
      |baseUrl| + 1 <= |url| - 5
      && url[..|baseUrl|] == baseUrl
      && SplitOn(url[|baseUrl| + 1..|url| - 5], '/') == [location, slug]
  {
    var url := baseUrl + "/" + location + "/" + slug + ".html";
    var path := location + "/" + slug;
    AppendAssoc(baseUrl + "/", location + "/", slug);
    assert url == (baseUrl + "/") + path + ".html";
    assert url[|baseUrl| + 1..|url| - 5] == path;
    SplitOnNone(slug, '/');
    SplitOnCons(location, '/', slug);
  }

  /** In a registry without repeated codes, every entry's address is
      built from its own slug. */
  lemma EntryUrl(baseUrl: string, d: MensaDict, i: int)
    requires IsDict(d) && 0 <= i < |d|
    ensures BuildMensaUrl(baseUrl, d, d[i].0, d[i].1.0) == baseUrl + "/" + d[i].1.0 + "/" + d[i].1.1 + ".html"
  {
    GetAt(d, i);
  }

  /** The slug with its hyphens made spaces, then title-cased. */
  function DisplayName(slug: string): (name: string)
    ensures |name| == |slug| && '-' !in name
  {
    var spaced := ReplaceChar(slug, '-', ' ');
    TitleChars(spaced);
    assert forall i :: 0 <= i < |spaced| ==> Title(spaced)[i] != '-' by {
      forall i | 0 <= i < |spaced| ensures Title(spaced)[i] != '-' {
        TitleAt(spaced, i);
        CaseMapCased(spaced[i]);
      }
    }
    Title(spaced)
  }

  /** A display name spells the slug with spaces for hyphens, only the case
      changed: a character right after a cased one is lower-cased, any
      other is upper-cased, so every word after a hyphen or a space starts
      with a capital. */
  lemma DisplayNameShape(slug: string)
    ensures Lower(DisplayName(slug)) == Lower(ReplaceChar(slug, '-', ' '))
    ensures forall i :: 0 <= i < |slug| && slug[i] != '-' && (i == 0 || slug[i - 1] == '-' || slug[i - 1] == ' ') ==>
      DisplayName(slug)[i] == UpperChar(slug[i])
    ensures forall i :: 0 <= i < |slug| ==>
      DisplayName(slug)[i] ==
        if slug[i] == '-' then ' '
        else if i == 0 || !IsCased(slug[i - 1]) then UpperChar(slug[i])
        else LowerChar(slug[i])
  {
    var spaced := ReplaceChar(slug, '-', ' ');
    var name := DisplayName(slug);
    TitleChars(spaced);
    assert !IsCased('-') && !IsCased(' ') && UpperChar(' ') == ' ' && LowerChar(' ') == ' ';
    forall i | 0 <= i < |slug|
      ensures name[i] ==
        if slug[i] == '-' then ' '
        else if i == 0 || !IsCased(slug[i - 1]) then UpperChar(slug[i])
        else LowerChar(slug[i])
    {
      TitleAt(spaced, i);
      if i > 0 {
        assert IsCased(spaced[i - 1]) == IsCased(slug[i - 1]);
      }
    }
    forall i | 0 <= i < |slug| ensures Lower(name)[i] == Lower(spaced)[i] {
      TitleAt(spaced, i);
      LowerUpperChar(spaced[i]);
    }
    forall i | 0 <= i < |slug| && slug[i] != '-' && (i == 0 || slug[i - 1] == '-' || slug[i - 1] == ' ')
      ensures name[i] == UpperChar(slug[i])
    {
      TitleAt(spaced, i);
    }
  }

  /** `_modify_mensa_name`: the display name of the slug a code stands for;
      an unknown code is itself turned into a name. */
  function ModifyMensaName(d: MensaDict, name: string): (r: string)
    ensures name in Keys(d) ==> r == DisplayName(Get(d, name).value.1)
    ensures name !in Keys(d) ==> r == DisplayName(name)
  {
    var slug := match Get(d, name) case Some(entry) => entry.1 case None => name;
    DisplayName(slug)
  }

  /** The registry's `MAP` slug, as the page shows it. */
  lemma MensaAmPark()
    ensures DisplayName("mensa-am-park") == "Mensa Am Park"
  {
    SpacedMensaAmPark();
    var spaced := "mensa am park";
    var name := "Mensa Am Park";
    TitleAt(spaced, 0); TitleAt(spaced, 1); TitleAt(spaced, 2); TitleAt(spaced, 3);
    TitleAt(spaced, 4); TitleAt(spaced, 5); TitleAt(spaced, 6); TitleAt(spaced, 7);
    TitleAt(spaced, 8); TitleAt(spaced, 9); TitleAt(spaced, 10); TitleAt(spaced, 11);
    TitleAt(spaced, 12);
    assert |Title(spaced)| == |name|;
  }

  lemma SpacedMensaAmPark()
    ensures ReplaceChar("mensa-am-park", '-', ' ') == "mensa am park"
  {
  }
}

=== FILE: scraper.dfy ===
/** The canteen scraper: its configuration, the state one scrape leaves
    behind, and the keyword search over scraped dishes. */
module Scraper {
  import opened Wrappers
  import opened Seqs
  import opened Text
  import opened Dicts
  import opened Registry
  import opened Extract

  const DefaultMenuCategories: seq<string> := ["Fr\U{00FC}hst\U{00FC}ck", "Mittagessen", "Zwischenversorgung", "Abendessen"]
  const DefaultBaseUrl: string := "https://www.stw-thueringen.de/mensen"

  /** The `menu_categories` argument: absent, one name, or a list. */
  datatype CategoriesArg = NoCategories | OneCategory(name: string) | CategoryList(names: seq<string>)

  datatype MensaScraper = MensaScraper(
    menuCategories: seq<string>,
    baseUrl: string,
    mensaDict: MensaDict,
    dishesByCategory: Option<Menu>,
    mensaName: Option<string>,
    location: Option<string>,
    fullUrl: Option<string>)

  /** The configured categories: one name becomes a list of one, and an
      absent or empty list the four default meals. */
  function MenuCategoriesOf(arg: CategoriesArg): (cats: seq<string>)
    ensures cats != []
    ensures arg.OneCategory? ==> cats == [arg.name]
    ensures arg.CategoryList? && arg.names != [] ==> cats == arg.names
    ensures arg.NoCategories? || arg == CategoryList([]) ==> cats == DefaultMenuCategories
  {
    var given := match arg
      case NoCategories => []
      case OneCategory(name) => [name]
      case CategoryList(names) => names;
    if given != [] then given else DefaultMenuCategories
  }

  /** The constructor: unset or empty settings take their defaults, and no
      scrape has happened yet. */
  function NewScraper(menuCategories: CategoriesArg, baseUrl: Option<string>, mensaDict: Option<MensaDict>)
    : (s: MensaScraper)
    ensures s.menuCategories == MenuCategoriesOf(menuCategories)
    ensures s.baseUrl == if baseUrl.Some? && baseUrl.value != [] then baseUrl.value else DefaultBaseUrl
    ensures s.mensaDict == if mensaDict.Some? && mensaDict.value != [] then mensaDict.value else DefaultMensaDict
    ensures s.baseUrl != [] && s.mensaDict != []
    ensures s.dishesByCategory.None? && s.mensaName.None? && s.location.None? && s.fullUrl.None?
  {
    MensaScraper(
      MenuCategoriesOf(menuCategories),
      if baseUrl.Some? && baseUrl.value != [] then baseUrl.value else DefaultBaseUrl,
      if mensaDict.Some? && mensaDict.value != [] then mensaDict.value else DefaultMensaDict,
      None, None, None, None)
  }

  /** What fetching a canteen page gave: the page's sections, or a failed
      request. */
  datatype Fetched = Page(sections: seq<Section>) | FetchFailed

  datatype ScrapeError = UnknownMensaCode(code: string)

  /** `scrape_menu_by_category`: the scraper afterwards, and the dishes
      found (or a raised error). */
  function ScrapeMenuByCategory(s: MensaScraper, code: string, fetched: Fetched)
    : (r: (MensaScraper, Result<Option<Menu>, ScrapeError>))
    ensures code !in Keys(s.mensaDict) <==> r.1.Err?
    ensures r.1.Err? ==> r.0 == s
    ensures r.1.Ok? ==>
      var location := Get(s.mensaDict, code).value.0;
      r.0.fullUrl == Some(BuildMensaUrl(s.baseUrl, s.mensaDict, code, location))
      && r.0.mensaName == Some(ModifyMensaName(s.mensaDict, code))
      && r.0.location == Some(location)
      && r.0.menuCategories == s.menuCategories && r.0.baseUrl == s.baseUrl && r.0.mensaDict == s.mensaDict
    ensures r.1.Ok? && fetched.FetchFailed? ==> r.1.value.None? && r.0.dishesByCategory == s.dishesByCategory
    ensures r.1.Ok? && fetched.Page? ==> r.0.dishesByCategory == r.1.value
    ensures r.1.Ok? && fetched.Page? ==>
      r.1.value == if fetched.sections == [] then None
        else GetMenuByCategory(Some(fetched.sections), Some(GetMealCategories(fetched.sections).value.1), s.menuCategories)
  {
    match Get(s.mensaDict, code)
    case None => (s, Err(UnknownMensaCode(code)))
    case Some(entry) =>
      var location := entry.0;
      var s1 := s.(
        fullUrl := Some(BuildMensaUrl(s.baseUrl, s.mensaDict, code, location)),
        mensaName := Some(ModifyMensaName(s.mensaDict, code)),
        location := Some(location));
      match fetched
      case FetchFailed => (s1, Ok(None))
      case Page(sections) =>
        var found := GetMealCategories(sections);
        var menu := match found
          case None => GetMenuByCategory(None, None, s.menuCategories)
          case Some(sn) => GetMenuByCategory(Some(sn.0), Some(sn.1), s.menuCategories);
        (s1.(dishesByCategory := menu), Ok(menu))
  }

  /** A scraped menu only holds configured categories, and holds at least
      one. */
  lemma ScrapedMenuCategories(s: MensaScraper, code: string, sections: seq<Section>)
    requires code in Keys(s.mensaDict)
    ensures var r := ScrapeMenuByCategory(s, code, Page(sections));
      r.1.Ok? && (r.1.value.None? <==> sections == [] || forall i :: 0 <= i < |sections| ==> CategoryName(sections[i]) !in s.menuCategories)
      && (r.1.value.Some? ==> r.1.value.value != [] && forall k :: k in Keys(r.1.value.value) ==> k in s.menuCategories)
  {
    if sections != [] {
      var names := GetMealCategories(sections).value.1;
      assert |ZipDishes(sections, names)| == |sections|;
    }
  }

  /** Each category of a scraped menu holds the dishes of the page's last
      section with that name. */
  lemma ScrapedMenuEntries(s: MensaScraper, code: string, sections: seq<Section>)
    requires code in Keys(s.mensaDict)
    ensures var r := ScrapeMenuByCategory(s, code, Page(sections));
      r.1.Ok? && r.1.value.Some? ==> forall k :: k in Keys(r.1.value.value) ==>
        exists i :: 0 <= i < |sections| && CategoryName(sections[i]) == k
          && Get(r.1.value.value, k) == Some(Dishes(sections[i]))
          && forall j :: i < j < |sections| ==> CategoryName(sections[j]) != k
  {
    if sections != [] {
      var names := GetMealCategories(sections).value.1;
      var menu := GetMenuByCategory(Some(sections), Some(names), s.menuCategories);
      assert ScrapeMenuByCategory(s, code, Page(sections)).1 == Ok(menu);
      assert |ZipDishes(sections, names)| == |sections|;
      forall i | 0 <= i < |sections| ensures names[i] == CategoryName(sections[i]) {
      }
      if menu.Some? {
        forall k | k in Keys(menu.value)
          ensures exists i :: 0 <= i < |sections| && CategoryName(sections[i]) == k
                     && Get(menu.value, k) == Some(Dishes(sections[i]))
                     && forall j :: i < j < |sections| ==> CategoryName(sections[j]) != k
        {
          MenuEntry(sections, names, s.menuCategories, k);
        }
      }
    }
  }

  // Keyword search.

  /** The `keywords` argument: one keyword or a list. */
  datatype Keywords = OneKeyword(keyword: string) | KeywordList(keywords: seq<string>)

  /** The keywords, lower-cased, one string counting as a list of one. */
  function LoweredKeywords(k: Keywords): (kws: seq<string>)
    ensures k.OneKeyword? ==> kws == [Lower(k.keyword)]
    ensures k.KeywordList? ==> |kws| == |k.keywords| && forall i :: 0 <= i < |kws| ==> kws[i] == Lower(k.keywords[i])
  {
    match k
    case OneKeyword(w) => [Lower(w)]
    case KeywordList(ws) => seq(|ws|, i requires 0 <= i < |ws| => Lower(ws[i]))
  }

  /** Some keyword occurs in the lower-cased dish, at some position. No
      keyword hits nothing, and an empty keyword hits every dish. */
  function Hits(kws: seq<string>, dish: string): (b: bool)
    ensures b <==> exists i :: 0 <= i < |kws| && exists j :: OccursAt(kws[i], Lower(dish), j)
    ensures kws == [] ==> !b
    ensures (exists i :: 0 <= i < |kws| && kws[i] == []) ==> b
  {
    assert forall i :: 0 <= i < |kws| ==>
      (IsSubstring(kws[i], Lower(dish)) <==> exists j :: OccursAt(kws[i], Lower(dish), j)) by {
      forall i | 0 <= i < |kws|
        ensures IsSubstring(kws[i], Lower(dish)) <==> exists j :: OccursAt(kws[i], Lower(dish), j)
      {
        IsSubstringAt(kws[i], Lower(dish));
      }
    }
    exists i :: 0 <= i < |kws| && IsSubstring(kws[i], Lower(dish))
  }

  function HitsAny(kws: seq<string>): string -> bool {
    dish => Hits(kws, dish)
  }

  /** The dishes of a flat list that match, in order; nothing for no match. */
  function MatchFlat(kws: seq<string>, dishes: seq<string>): (r: Option<seq<string>>)
    ensures r.None? <==> forall i :: 0 <= i < |dishes| ==> !Hits(kws, dishes[i])
    ensures r.Some? ==> r.value != [] && IsSubsequence(r.value, dishes)
    ensures r.Some? ==> forall d :: d in r.value <==> d in dishes && Hits(kws, d)
    ensures r.Some? ==> forall d :: Count(r.value, d) == if Hits(kws, d) then Count(dishes, d) else 0
  {
    var m := Filter(dishes, HitsAny(kws));
    if m == [] then
      assert forall i :: 0 <= i < |dishes| ==> !Hits(kws, dishes[i]) by {
        forall i | 0 <= i < |dishes| ensures !Hits(kws, dishes[i]) {
          assert dishes[i] in dishes;
        }
      }
      None
    else
      assert m[0] in dishes && Hits(kws, m[0]);
      Some(m)
  }

  /** Each category filtered by the flat rule. */
  function FilterCategories(kws: seq<string>, menu: Menu): (r: Menu)
    ensures Keys(r) == Keys(menu)
    ensures forall i :: 0 <= i < |r| ==> r[i].1 == Filter(menu[i].1, HitsAny(kws))
  {
    seq(|menu|, i requires 0 <= i < |menu| => (menu[i].0, Filter(menu[i].1, HitsAny(kws))))
  }

  function NonEmptyValue(): ((string, seq<string>)) -> bool {
    (p: (string, seq<string>)) => p.1 != []
  }

  /** The categories of a mapping with their matching dishes, categories
      without a match dropped, in the mapping's order; nothing for no
      match at all. */
  function MatchGrouped(kws: seq<string>, menu: Menu): (r: Option<Menu>)
    ensures r.None? <==> forall i, j :: 0 <= i < |menu| && 0 <= j < |menu[i].1| ==> !Hits(kws, menu[i].1[j])
    ensures r.Some? ==> r.value != [] && IsSubsequence(Keys(r.value), Keys(menu))
    ensures r.Some? ==> forall e :: e in r.value ==>
      (e.1 != [] && exists i :: 0 <= i < |menu| && menu[i].0 == e.0 && e.1 == Filter(menu[i].1, HitsAny(kws)))
    ensures r.Some? ==> forall i :: 0 <= i < |menu| && Filter(menu[i].1, HitsAny(kws)) != [] ==>
      (menu[i].0, Filter(menu[i].1, HitsAny(kws))) in r.value
  {
    var kept := Filter(FilterCategories(kws, menu), NonEmptyValue());
    MatchedEmpty(kws, menu);
    if kept == [] then None
    else
      MatchedEntries(kws, menu);
      MatchedComplete(kws, menu);
      Some(kept)
  }

  /** Every category with a matching dish is kept, with those dishes. */
  lemma MatchedComplete(kws: seq<string>, menu: Menu)
    ensures forall i :: 0 <= i < |menu| && Filter(menu[i].1, HitsAny(kws)) != [] ==>
      (menu[i].0, Filter(menu[i].1, HitsAny(kws))) in Filter(FilterCategories(kws, menu), NonEmptyValue())
  {
    var all := FilterCategories(kws, menu);
    forall i | 0 <= i < |menu| && Filter(menu[i].1, HitsAny(kws)) != []
      ensures (menu[i].0, Filter(menu[i].1, HitsAny(kws))) in Filter(all, NonEmptyValue())
    {
      assert Keys(all)[i] == menu[i].0;
      assert all[i] == (menu[i].0, Filter(menu[i].1, HitsAny(kws)));
      assert all[i] in all;
    }
  }

  /** No category keeps a dish exactly when no dish hits. */
  lemma MatchedEmpty(kws: seq<string>, menu: Menu)
    ensures Filter(FilterCategories(kws, menu), NonEmptyValue()) == [] <==>
      forall i, j :: 0 <= i < |menu| && 0 <= j < |menu[i].1| ==> !Hits(kws, menu[i].1[j])
  {
    var all := FilterCategories(kws, menu);
    var kept := Filter(all, NonEmptyValue());
    if kept == [] {
      forall i, j | 0 <= i < |menu| && 0 <= j < |menu[i].1| ensures !Hits(kws, menu[i].1[j]) {
        assert all[i] in all && all[i] !in kept;
        assert menu[i].1[j] in menu[i].1;
      }
    } else {
      var e := kept[0];
      assert e in all;
      var i :| 0 <= i < |all| && all[i] == e;
      var d := e.1[0];
      assert d in Filter(menu[i].1, HitsAny(kws));
      var j :| 0 <= j < |menu[i].1| && menu[i].1[j] == d;
    }
  }

  /** The kept categories come from the mapping, in its order, each with
      its own matching dishes. */
  lemma MatchedEntries(kws: seq<string>, menu: Menu)
    ensures var kept := Filter(FilterCategories(kws, menu), NonEmptyValue());
      IsSubsequence(Keys(kept), Keys(menu))
      && forall e :: e in kept ==>
        (e.1 != [] && exists i :: 0 <= i < |menu| && menu[i].0 == e.0 && e.1 == Filter(menu[i].1, HitsAny(kws)))
  {
    var all := FilterCategories(kws, menu);
    var kept := Filter(all, NonEmptyValue());
    KeysSubsequence(kept, all);
    forall e | e in kept
      ensures e.1 != [] && exists i :: 0 <= i < |menu| && menu[i].0 == e.0 && e.1 == Filter(menu[i].1, HitsAny(kws))
    {
      var i :| 0 <= i < |all| && all[i] == e;
      assert Keys(all)[i] == menu[i].0;
    }
  }

  /** The `dishes` argument: absent, a flat list, a mapping, or a value of
      another type (with its truth value). */
  datatype DishesArg = NoDishes | FlatDishes(list: seq<string>) | GroupedDishes(menu: Menu) | OtherDishes(truthy: bool)

  datatype Matches = FlatMatches(dishes: seq<string>) | GroupedMatches(menu: Menu)

  predicate Falsy(d: DishesArg) {
    match d
    case NoDishes => true
    case FlatDishes(list) => list == []
    case GroupedDishes(menu) => menu == []
    case OtherDishes(truthy) => !truthy
  }

  /** The matches of a list, as a result of `find_matches`. */
  function AsFlat(r: Option<seq<string>>): Option<Matches> {
    if r.Some? then Some(FlatMatches(r.value)) else None
  }

  /** The matches of a mapping, as a result of `find_matches`. */
  function AsGrouped(r: Option<Menu>): Option<Matches> {
    if r.Some? then Some(GroupedMatches(r.value)) else None
  }

  /** `find_matches`: an empty or absent `dishes` searches the last scraped
      menu; a list gives the matching list, a mapping the matching mapping;
      nothing when there is nothing to search or nothing matches. */
  function FindMatches(s: MensaScraper, keywords: Keywords, dishes: DishesArg): (r: Option<Matches>)
    ensures Falsy(dishes) && (s.dishesByCategory.None? || s.dishesByCategory.value == []) ==> r.None?
    ensures Falsy(dishes) && s.dishesByCategory.Some? && s.dishesByCategory.value != [] ==>
      r == AsGrouped(MatchGrouped(LoweredKeywords(keywords), s.dishesByCategory.value))
    ensures !Falsy(dishes) && dishes.FlatDishes? ==> r == AsFlat(MatchFlat(LoweredKeywords(keywords), dishes.list))
    ensures !Falsy(dishes) && dishes.GroupedDishes? ==>
      r == AsGrouped(MatchGrouped(LoweredKeywords(keywords), dishes.menu))
    ensures !Falsy(dishes) && dishes.OtherDishes? ==> r.None?
  {
    var kws := LoweredKeywords(keywords);
    if Falsy(dishes) then
      if s.dishesByCategory.None? || s.dishesByCategory.value == [] then None
      else AsGrouped(MatchGrouped(kws, s.dishesByCategory.value))
    else if dishes.FlatDishes? then AsFlat(MatchFlat(kws, dishes.list))
    else if dishes.GroupedDishes? then AsGrouped(MatchGrouped(kws, dishes.menu))
    else None
  }

  /** Matching ignores case: in the keywords and in the dishes. */
  lemma HitsIgnoresCase(kws: seq<string>, dish: string)
    ensures Hits(kws, Upper(dish)) == Hits(kws, dish)
    ensures Hits(kws, Lower(dish)) == Hits(kws, dish)
  {
    LowerUpper(dish);
    LowerIdempotent(dish);
  }

  lemma KeywordsIgnoreCase(w: string)
    ensures LoweredKeywords(OneKeyword(Upper(w))) == LoweredKeywords(OneKeyword(w))
    ensures LoweredKeywords(OneKeyword(w)) == LoweredKeywords(KeywordList([w]))
  {
    LowerUpper(w);
  }

  /** A scrape of a page without sections leaves nothing to search. */
  lemma EmptyPageNoMatches(s: MensaScraper, code: string, keywords: Keywords)
    requires code in Keys(s.mensaDict)
    ensures var r := ScrapeMenuByCategory(s, code, Page([]));
      r.1 == Ok(None) && FindMatches(r.0, keywords, NoDishes).None?
  {
  }
}

=== FILE: seqs.dfy ===
/** Generic sequence operations that the Python code spells as list
    comprehensions, `str.join` and `str.split`. */
module Seqs {

  /** No element occurs twice. */
  predicate Distinct<T(==)>(s: seq<T>) {
    forall i, j :: 0 <= i < j < |s| ==> s[i] != s[j]
  }

  /** `a` is `b` with some elements left out and the rest in their order. */
  predicate IsSubsequence<T(==)>(a: seq<T>, b: seq<T>)
    decreases |b|
  {
    if a == [] then true
    else if b == [] then false
    else if a[0] == b[0] then IsSubsequence(a[1..], b[1..])
    else IsSubsequence(a, b[1..])
  }

  /** Leaving out the first element of a subsequence keeps a subsequence. */
  lemma {:induction false} SubsequenceTail<T>(a: seq<T>, b: seq<T>)
    requires a != [] && IsSubsequence(a, b)
    ensures IsSubsequence(a[1..], b)
    decreases |b|, 1
  {
    if a[0] == b[0] {
      SubsequenceSkip(a[1..], b);
    } else {
      SubsequenceTail(a, b[1..]);
      SubsequenceSkip(a[1..], b);
    }
  }

  /** A subsequence of the tail is a subsequence of the whole. */
  lemma {:induction false} SubsequenceSkip<T>(a: seq<T>, b: seq<T>)
    requires b != [] && IsSubsequence(a, b[1..])
    ensures IsSubsequence(a, b)
    decreases |b|, 0
  {
    if a != [] && a[0] == b[0] {
      SubsequenceTail(a, b[1..]);
    }
  }

  /** Everything in a subsequence is in the whole. */
  lemma {:induction false} SubsequenceIn<T>(a: seq<T>, b: seq<T>)
    requires IsSubsequence(a, b)
    ensures forall x :: x in a ==> x in b
    decreases |b|
  {
    if a != [] {
      if a[0] == b[0] {
        SubsequenceIn(a[1..], b[1..]);
        assert forall x :: x in a ==> x == a[0] || x in a[1..];
      } else {
        SubsequenceIn(a, b[1..]);
      }
    }
  }

  /** A subsequence of a list without duplicates has none either. */
  lemma {:induction false} SubsequenceDistinct<T>(a: seq<T>, b: seq<T>)
    requires IsSubsequence(a, b) && Distinct(b)
    ensures Distinct(a)
    decreases |b|
  {
    if a != [] {
      assert Distinct(b[1..]) by {
        forall i, j | 0 <= i < j < |b[1..]| ensures b[1..][i] != b[1..][j] {
          assert b[1..][i] == b[i + 1] && b[1..][j] == b[j + 1];
        }
      }
      if a[0] == b[0] {
        SubsequenceDistinct(a[1..], b[1..]);
        SubsequenceIn(a[1..], b[1..]);
        assert b[0] !in b[1..] by {
          forall j | 0 <= j < |b[1..]| ensures b[1..][j] != b[0] {
            assert b[1..][j] == b[j + 1];
          }
        }
        forall i, j | 0 <= i < j < |a| ensures a[i] != a[j] {
          assert a[j] == a[1..][j - 1];
          if i > 0 {
            assert a[i] == a[1..][i - 1];
          } else {
            assert a[j] in a[1..];
          }
        }
      } else {
        SubsequenceDistinct(a, b[1..]);
      }
    }
  }

  lemma AppendAssoc<T>(a: seq<T>, b: seq<T>, c: seq<T>)
    ensures a + (b + c) == a + b + c
  {
  }

  lemma SliceSplit<T>(s: seq<T>, k: int)
    requires 0 <= k <= |s|
    ensures s[..k] + s[k..] == s
  {
  }

  lemma SliceAppend<T>(a: seq<T>, t: seq<T>, k: int)
    requires 0 <= k <= |a|
    ensures (a + t)[k..] == a[k..] + t && (a + t)[..k] == a[..k]
  {
  }

  /** `s.count(x)` */
  function Count<T(==)>(s: seq<T>, x: T): nat {
    if s == [] then 0 else (if s[0] == x then 1 else 0) + Count(s[1..], x)
  }

  /** The elements satisfying `p`: exactly those, each as
      often as in `s`, in their original order. */
  function Filter<T(==,!new)>(s: seq<T>, p: T -> bool): (r: seq<T>)
    ensures IsSubsequence(r, s)
    ensures forall x :: Count(r, x) == if p(x) then Count(s, x) else 0
    ensures forall x :: x in r <==> x in s && p(x)
  {
    if s == [] then []
    else
      var rest := Filter(s[1..], p);
      assert s == [s[0]] + s[1..];
      if p(s[0]) then [s[0]] + rest
      else
        assert rest != [] ==> rest[0] in rest && rest[0] != s[0];
        rest
  }

  /** Filtering one more element at the end filters the prefix and then
      that element. */
  lemma {:induction false} FilterSnoc<T(!new)>(s: seq<T>, x: T, p: T -> bool)
    ensures Filter(s + [x], p) == Filter(s, p) + if p(x) then [x] else []
  {
    if s == [] {
      assert s + [x] == [x];
    } else {
      var t := s + [x];
      assert t[0] == s[0] && t[1..] == s[1..] + [x];
      FilterSnoc(s[1..], x, p);
      var tail := if p(x) then [x] else [];
      if p(s[0]) {
        assert Filter(t, p) == [s[0]] + (Filter(s[1..], p) + tail);
        AppendAssoc([s[0]], Filter(s[1..], p), tail);
      }
    }
  }

  /** A weaker test keeps at least what a stronger one keeps, in order. */
  lemma {:induction false} FilterMono<T(!new)>(s: seq<T>, p: T -> bool, q: T -> bool)
    requires forall x :: p(x) ==> q(x)
    ensures IsSubsequence(Filter(s, p), Filter(s, q))
    decreases |s|
  {
    if s != [] {
      FilterMono(s[1..], p, q);
      var a := Filter(s[1..], p);
      var b := Filter(s[1..], q);
      assert s == [s[0]] + s[1..];
      if p(s[0]) {
        assert Filter(s, p) == [s[0]] + a && Filter(s, q) == [s[0]] + b;
        assert ([s[0]] + a)[1..] == a && ([s[0]] + b)[1..] == b;
      } else if q(s[0]) {
        assert Filter(s, p) == a && Filter(s, q) == [s[0]] + b;
        assert ([s[0]] + b)[1..] == b;
        SubsequenceSkip(a, [s[0]] + b);
      }
    }
  }

  /** Removes later repetitions, keeping each element at its first
      position; the key order of a Python dict built from `s`. */
  function Dedup<T(==,!new)>(s: seq<T>): (r: seq<T>)
    ensures Distinct(r)
    ensures forall x :: x in r <==> x in s
    ensures |r| <= |s|
  {
    if s == [] then []
    else
      var p := Dedup(s[..|s| - 1]);
      assert forall x :: x in s <==> x in s[..|s| - 1] || x == s[|s| - 1] by {
        assert s == s[..|s| - 1] + [s[|s| - 1]];
      }
      if s[|s| - 1] in p then p else p + [s[|s| - 1]]
  }

  /** Filtering a list whose elements all pass changes nothing. */
  lemma {:induction false} FilterAll<T(!new)>(s: seq<T>, p: T -> bool)
    requires forall i :: 0 <= i < |s| ==> p(s[i])
    ensures Filter(s, p) == s
    decreases |s|
  {
    if s != [] {
      FilterAll(s[1..], p);
      assert [s[0]] + s[1..] == s;
    }
  }

  /** A list without repetitions is its own deduplication. */
  lemma {:induction false} DedupDistinct<T(!new)>(s: seq<T>)
    requires Distinct(s)
    ensures Dedup(s) == s
  {
    if s != [] {
      var init := s[..|s| - 1];
      assert Distinct(init);
      DedupDistinct(init);
      assert s[|s| - 1] !in init;
      assert s == init + [s[|s| - 1]];
    }
  }

  /** `sep.join(parts)`. */
  function Join<T>(parts: seq<seq<T>>, sep: seq<T>): seq<T>
    decreases |parts|
  {
    if |parts| == 0 then []
    else if |parts| == 1 then parts[0]
    else parts[0] + sep + Join(parts[1..], sep)
  }

  /** Joining two non-empty lists of parts puts one separator between them. */
  lemma {:induction false} JoinAppend<T>(a: seq<seq<T>>, b: seq<seq<T>>, sep: seq<T>)
    requires a != [] && b != []
    ensures Join(a + b, sep) == Join(a, sep) + sep + Join(b, sep)
    decreases |a|
  {
    if |a| == 1 {
      assert a + b == [a[0]] + b;
      assert (a + b)[1..] == b;
    } else {
      assert (a + b)[1..] == a[1..] + b;
      JoinAppend(a[1..], b, sep);
    }
  }

  /** A joined list begins with its first part. */
  lemma JoinFirst<T>(parts: seq<seq<T>>, sep: seq<T>)
    requires parts != []
    ensures |parts[0]| <= |Join(parts, sep)| && Join(parts, sep)[..|parts[0]|] == parts[0]
  {
  }

  /** A joined list ends with its last part. */
  lemma {:induction false} JoinLast<T>(parts: seq<seq<T>>, sep: seq<T>)
    requires parts != []
    ensures var j, last := Join(parts, sep), parts[|parts| - 1];
      |last| <= |j| && j[|j| - |last|..] == last
    decreases |parts|
  {
    if |parts| > 1 {
      JoinLast(parts[1..], sep);
      var rest := Join(parts[1..], sep);
      var last := parts[|parts| - 1];
      assert parts[1..][|parts[1..]| - 1] == last;
      var j := parts[0] + sep + rest;
      assert j[|j| - |last|..] == rest[|rest| - |last|..];
    }
  }

  /** Joining is determined by the joined tail, as long as both tails are
      empty or both are not. */
  lemma JoinSameTail<T>(a: seq<seq<T>>, b: seq<seq<T>>, b': seq<seq<T>>, sep: seq<T>)
    requires (b == []) == (b' == [])
    requires Join(b, sep) == Join(b', sep)
    ensures Join(a + b, sep) == Join(a + b', sep)
  {
    if a != [] && b != [] {
      JoinAppend(a, b, sep);
      JoinAppend(a, b', sep);
    } else if b == [] {
      assert a + b == a && a + b' == a;
    } else {
      assert a + b == b && a + b' == b';
    }
  }

  /** A part that starts with the separator joins like an empty part
      followed by the rest of it. */
  lemma SepHead<T>(h: seq<T>, rest: seq<seq<T>>, sep: seq<T>)
    ensures Join([sep + h] + rest, sep) == Join([[], h] + rest, sep)
  {
    assert ([[], h] + rest)[1..] == [h] + rest;
    if rest != [] {
      JoinCons(sep + h, rest, sep);
      JoinCons(h, rest, sep);
      JoinCons([], [h] + rest, sep);
    } else {
      assert [sep + h] + rest == [sep + h];
      assert [[], h] + rest == [[], h];
    }
  }

  /** `s.split(c)` for a one-character separator `c`: the pieces between
      the occurrences of `c`, one more piece than there are occurrences. */
  function SplitOn<T(==)>(s: seq<T>, c: T): (r: seq<seq<T>>)
    ensures |r| == Count(s, c) + 1
    ensures forall i :: 0 <= i < |r| ==> c !in r[i]
  {
    if s == [] then [[]]
    else
      var rest := SplitOn(s[1..], c);
      if s[0] == c then [[]] + rest
      else [[s[0]] + rest[0]] + rest[1..]
  }

  /** Splitting a part that holds no separator, then a separator, splits
      off that part. */
  lemma {:induction false} SplitOnCons<T>(a: seq<T>, c: T, b: seq<T>)
    requires c !in a
    ensures SplitOn(a + [c] + b, c) == [a] + SplitOn(b, c)
    decreases |a|
  {
    if a == [] {
      assert a + [c] + b == [c] + b;
    } else {
      assert (a + [c] + b)[1..] == a[1..] + [c] + b;
      SplitOnCons(a[1..], c, b);
      assert [a[0]] + a[1..] == a;
    }
  }

  /** Splitting two texts joined by a separator splits each of them. */
  lemma {:induction false} SplitOnAppend<T>(a: seq<T>, c: T, b: seq<T>)
    ensures SplitOn(a + [c] + b, c) == SplitOn(a, c) + SplitOn(b, c)
    decreases |a|
  {
    if a == [] {
      assert a + [c] + b == [c] + b;
    } else {
      assert (a + [c] + b)[1..] == a[1..] + [c] + b;
      SplitOnAppend(a[1..], c, b);
    }
  }

  /** A piece without separators splits into itself. */
  lemma {:induction false} SplitOnNone<T>(a: seq<T>, c: T)
    requires c !in a
    ensures SplitOn(a, c) == [a]
    decreases |a|
  {
    if a != [] {
      SplitOnNone(a[1..], c);
      assert [a[0]] + a[1..] == a;
    }
  }

  /** `c.join(s.split(c)) == s` for every `s`. */
  lemma {:induction false} JoinSplitOn<T>(s: seq<T>, c: T)
    ensures Join(SplitOn(s, c), [c]) == s
    decreases |s|
  {
    if s != [] {
      var rest := SplitOn(s[1..], c);
      JoinSplitOn(s[1..], c);
      assert s == [s[0]] + s[1..];
      if s[0] == c {
        assert SplitOn(s, c) == [[]] + rest;
        JoinCons([], rest, [c]);
        assert [] + [c] + s[1..] == s;
      } else {
        assert SplitOn(s, c) == [[s[0]] + rest[0]] + rest[1..];
        JoinConsHead(s[0], rest, [c]);
      }
    }
  }

  /** Joining a list with one more part in front. */
  lemma JoinCons<T>(x: seq<T>, rest: seq<seq<T>>, sep: seq<T>)
    requires rest != []
    ensures Join([x] + rest, sep) == x + sep + Join(rest, sep)
  {
    assert ([x] + rest)[1..] == rest;
  }

  /** Putting one more element in front of the first part. */
  lemma JoinConsHead<T>(a: T, parts: seq<seq<T>>, sep: seq<T>)
    requires parts != []
    ensures Join([[a] + parts[0]] + parts[1..], sep) == [a] + Join(parts, sep)
  {
    if |parts| > 1 {
      JoinCons([a] + parts[0], parts[1..], sep);
      JoinCons(parts[0], parts[1..], sep);
      assert [parts[0]] + parts[1..] == parts;
    }
  }

  /** The first piece of `s.split(c)` is the prefix of `s` before the first
      `c`. */
  lemma {:induction false} SplitOnHead<T>(s: seq<T>, c: T)
    ensures var h := SplitOn(s, c)[0];
      |h| <= |s| && s[..|h|] == h && (|h| < |s| ==> s[|h|] == c)
    decreases |s|
  {
    if s != [] && s[0] != c {
      SplitOnHead(s[1..], c);
    }
  }

  /** `s.split(c)` undoes `c.join(parts)` when no part contains `c`. */
  lemma {:induction false} SplitOnJoin<T>(parts: seq<seq<T>>, c: T)
    requires parts != []
    requires forall i :: 0 <= i < |parts| ==> c !in parts[i]
    ensures SplitOn(Join(parts, [c]), c) == parts
    decreases |parts|
  {
    if |parts| == 1 {
      SplitOnNone(parts[0], c);
    } else {
      SplitOnCons(parts[0], c, Join(parts[1..], [c]));
      SplitOnJoin(parts[1..], c);
      assert [parts[0]] + parts[1..] == parts;
    }
  }
}

=== FILE: settings.dfy ===
/** The settings page's pure normalisation: what a saved profile holds, how
    a loaded one is turned back into form values, the profile names the
    page lists, and the canteen names it offers. Files, JSON and the page
    layout are not modelled. */
module Settings {
  import opened Wrappers
  import opened Seqs
  import opened Text
  import opened Dicts
  import opened Registry
  import opened Cron

  const FileType: string := ".json"

  // Alarm days.

  /** Every listed day, switched on. */
  function AllOn(days: seq<string>): (ps: Dict<string, bool>)
    ensures Keys(ps) == days
    ensures forall i :: 0 <= i < |ps| ==> ps[i].1
  {
    seq(|days|, i requires 0 <= i < |days| => (days[i], true))
  }

  /** `update_alarm_days`: the listed days as a dict of switches that are
      all on; nothing listed gives the empty dict. */
  function UpdateAlarmDays(days: Option<seq<string>>): (r: Dict<string, bool>)
    ensures IsDict(r)
    ensures days.None? || days.value == [] ==> r == []
    ensures days.Some? ==> Keys(r) == Dedup(days.value)
    ensures forall i :: 0 <= i < |r| ==> r[i].1
  {
    if days.None? || days.value == [] then []
    else
      var ps := AllOn(days.value);
      var r := FromPairs(ps);
      forall i | 0 <= i < |r| ensures r[i].1 {
        GetAt(r, i);
        LastValueAt(ps, r[i].0);
      }
      r
  }

  /** Loading turns the switches back into the list of days that are on,
      in the order of the file. */
  function LoadAlarmDays(days: Dict<string, bool>): (r: seq<string>)
    ensures forall d :: d in r <==> (d, true) in days
    ensures IsSubsequence(r, Keys(days))
    ensures IsDict(days) ==> Distinct(r)
  {
    EnabledDays(days)
  }

  /** Saving then loading gives back any list of distinct days. */
  lemma AlarmDaysRoundTrip(days: seq<string>)
    requires Distinct(days)
    ensures LoadAlarmDays(UpdateAlarmDays(Some(days))) == days
  {
    if days != [] {
      var r := UpdateAlarmDays(Some(days));
      DedupDistinct(days);
      FilterAll(r, IsEnabled());
    }
  }

  /** Loading a profile's days: a stored mapping gives its days that are
      on; a profile without one falls back to the default days, switched
      on and read back. */
  function LoadAlarmDaysOrDefault(stored: Option<Dict<string, bool>>, defaults: Option<seq<string>>)
    : (r: seq<string>)
    ensures stored.Some? ==> forall d :: d in r <==> (d, true) in stored.value
    ensures stored.None? ==> forall d :: d in r <==> defaults.Some? && d in defaults.value
    ensures stored.None? && (defaults.None? || defaults.value == []) ==> r == []
    ensures stored.None? && defaults.Some? && Distinct(defaults.value) ==> r == defaults.value
  {
    match stored
    case Some(days) => LoadAlarmDays(days)
    case None =>
      if defaults.Some? && Distinct(defaults.value) then
        AlarmDaysRoundTrip(defaults.value);
        LoadAlarmDays(UpdateAlarmDays(defaults))
      else
        var days := UpdateAlarmDays(defaults);
        assert forall d :: (d, true) in days <==> defaults.Some? && d in defaults.value by {
          forall d ensures (d, true) in days <==> defaults.Some? && d in defaults.value {
            if defaults.Some? && d in defaults.value {
              assert d in Keys(days);
              var i :| 0 <= i < |days| && Keys(days)[i] == d;
              assert days[i] == (d, true);
            }
            if (d, true) in days {
              var i :| 0 <= i < |days| && days[i] == (d, true);
              assert Keys(days)[i] == d;
            }
          }
        }
        LoadAlarmDays(days)
  }

  // Favourite foods.

  /** Saving: the text is split at every `;` and each piece stripped; empty
      pieces are kept. No text gives no foods. */
  function SplitFavoriteFoods(foods: Option<string>): (r: seq<string>)
    ensures !Truthy(foods) ==> r == []
    ensures Truthy(foods) ==> |r| == Count(foods.value, ';') + 1
    ensures forall i :: 0 <= i < |r| ==> Strip(r[i]) == r[i] && ';' !in r[i]
    ensures Truthy(foods) ==> exists pieces: seq<string> ::
      Join(pieces, ";") == foods.value && (forall k :: 0 <= k < |pieces| ==> ';' !in pieces[k]) && r == StripAll(pieces)
  {
    if !Truthy(foods) then []
    else
      var pieces := SplitOn(foods.value, ';');
      JoinSplitOn(foods.value, ';');
      var r := StripAll(pieces);
      forall i | 0 <= i < |r| ensures Strip(r[i]) == r[i] && ';' !in r[i] {
        StripEnds(pieces[i]);
        StripStripped(r[i]);
        var lead, trail := StripFrame(pieces[i]);
        assert ';' !in pieces[i];
      }
      r
  }

  /** Every piece stripped of surrounding whitespace. */
  function StripAll(pieces: seq<string>): (r: seq<string>)
    ensures |r| == |pieces|
    ensures forall i :: 0 <= i < |r| ==> r[i] == Strip(pieces[i])
  {
    seq(|pieces|, i requires 0 <= i < |pieces| => Strip(pieces[i]))
  }

  /** Loading: the stored foods joined with `"; "`. A profile without the
      entry cannot be loaded: the fallback is looked up under
      `favorite_foods`, a key the defaults do not have, and joining nothing
      fails. */
  function LoadFavoriteFoods(stored: Option<seq<string>>): (r: Option<string>)
    ensures r.None? <==> stored.None?
    ensures stored.Some? && stored.value != [] ==> StartsWith(r.value, stored.value[0])
    ensures stored == Some([]) ==> r == Some([])
    ensures stored.Some? && stored.value != [] && (forall i :: 0 <= i < |stored.value| ==> ';' !in stored.value[i]) ==>
      SplitOn(r.value, ';') == [stored.value[0]] + Spaced(stored.value[1..])
  {
    match stored
    case None => None
    case Some(foods) =>
      if foods == [] then Some([])
      else
        JoinFirst(foods, "; ");
        assert (forall i :: 0 <= i < |foods| ==> ';' !in foods[i]) ==>
          SplitOn(Join(foods, "; "), ';') == [foods[0]] + Spaced(foods[1..]) by {
          if forall i :: 0 <= i < |foods| ==> ';' !in foods[i] {
            SplitLoaded(foods);
          }
        }
        Some(Join(foods, "; "))
  }

  /** Each part with a space in front. */
  function Spaced(parts: seq<string>): (r: seq<string>)
    ensures |r| == |parts|
    ensures forall i :: 0 <= i < |r| ==> r[i] == " " + parts[i]
  {
    seq(|parts|, i requires 0 <= i < |parts| => " " + parts[i])
  }

  lemma {:induction false} JoinSpaced(parts: seq<string>)
    requires parts != []
    ensures Join(Spaced(parts), ";") == " " + Join(parts, "; ")
    decreases |parts|
  {
    if |parts| > 1 {
      JoinSpaced(parts[1..]);
      assert Spaced(parts)[1..] == Spaced(parts[1..]);
      assert Spaced(parts) == [" " + parts[0]] + Spaced(parts)[1..];
      JoinCons(" " + parts[0], Spaced(parts[1..]), ";");
      JoinCons(parts[0], parts[1..], "; ");
      assert parts == [parts[0]] + parts[1..];
    }
  }

  /** `"; ".join(foods)` is `";".join` of the foods with a space in front of
      all but the first. */
  lemma SemicolonJoin(foods: seq<string>)
    requires foods != []
    ensures Join(foods, "; ") == Join([foods[0]] + Spaced(foods[1..]), ";")
  {
    if |foods| > 1 {
      var x := Join(foods[1..], "; ");
      JoinSpaced(foods[1..]);
      JoinCons(foods[0], foods[1..], "; ");
      JoinCons(foods[0], Spaced(foods[1..]), ";");
      assert foods == [foods[0]] + foods[1..];
      assert Join(foods, "; ") == foods[0] + "; " + x;
      assert Join([foods[0]] + Spaced(foods[1..]), ";") == foods[0] + ";" + (" " + x);
      assert "; " == ";" + " ";
      AppendAssoc(";", " ", x);
      AppendAssoc(foods[0], ";", " " + x);
      AppendAssoc(foods[0], "; ", x);
    }
  }

  /** Non-empty, with no whitespace at either end. */
  predicate Trimmed(s: string) {
    s != [] && !IsSpace(s[0]) && !IsSpace(s[|s| - 1])
  }

  /** Stripping the pieces of the `;`-joined text gives the foods back. */
  lemma StripPieces(foods: seq<string>)
    requires foods != []
    requires forall i :: 0 <= i < |foods| ==> Trimmed(foods[i])
    ensures StripAll([foods[0]] + Spaced(foods[1..])) == foods
  {
    var parts := [foods[0]] + Spaced(foods[1..]);
    forall i | 0 <= i < |foods| ensures StripAll(parts)[i] == foods[i] {
      SpacedPiece(foods, i);
    }
  }

  /** One piece of the split text, stripped, is the food it came from. */
  lemma SpacedPiece(foods: seq<string>, i: int)
    requires 0 <= i < |foods| && Trimmed(foods[i])
    ensures StripAll([foods[0]] + Spaced(foods[1..]))[i] == foods[i]
  {
    var f := foods[i];
    StripStripped(f);
    if i > 0 {
      assert foods[1..][i - 1] == f;
      assert ([foods[0]] + Spaced(foods[1..]))[i] == Spaced(foods[1..])[i - 1] == " " + f;
      StripSpacePrefix(f);
    }
  }

  /** Loading then saving gives back the foods, as long as each is
      non-empty, holds no `;` and has no whitespace at either end. */
  lemma FavoriteFoodsRoundTrip(foods: seq<string>)
    requires forall i :: 0 <= i < |foods| ==> Trimmed(foods[i]) && ';' !in foods[i]
    ensures SplitFavoriteFoods(LoadFavoriteFoods(Some(foods))) == foods
  {
    if foods != [] {
      var text := Join(foods, "; ");
      JoinFirst(foods, "; ");
      assert LoadFavoriteFoods(Some(foods)) == Some(text);
      assert SplitFavoriteFoods(Some(text)) == StripAll(SplitOn(text, ';'));
      SplitLoaded(foods);
      StripPieces(foods);
    }
  }

  /** Splitting the `"; "`-joined foods at `;` gives them back, the space
      after each `;` still in front. */
  lemma SplitLoaded(foods: seq<string>)
    requires foods != []
    requires forall i :: 0 <= i < |foods| ==> ';' !in foods[i]
    ensures SplitOn(Join(foods, "; "), ';') == [foods[0]] + Spaced(foods[1..])
  {
    var parts := [foods[0]] + Spaced(foods[1..]);
    SemicolonJoin(foods);
    forall i | 0 <= i < |parts| ensures ';' !in parts[i] {
      if i > 0 {
        assert foods[1..][i - 1] == foods[i];
        assert parts[i] == " " + foods[i];
      }
    }
    SplitOnJoin(parts, ';');
  }

  // Profile files.

  /** The settings file name, with `.json` added unless it is there. */
  function SettingsFileName(name: string): (r: string)
    ensures EndsWith(r, FileType)
    ensures StartsWith(r, name)
    ensures EndsWith(name, FileType) ==> r == name
    ensures !EndsWith(name, FileType) ==> |r| == |name| + |FileType|
  {
    if EndsWith(name, FileType) then name
    else
      var r := name + FileType;
      assert r[..|name|] == name;
      assert r[|r| - |FileType|..] == FileType;
      r
  }

  /** Adding the suffix a second time changes nothing. */
  lemma SettingsFileNameIdempotent(name: string)
    ensures SettingsFileName(SettingsFileName(name)) == SettingsFileName(name)
  {
  }

  /** The files of the settings directory offered as profiles. */
  function ExistingProfiles(listing: seq<string>): (r: seq<string>)
    ensures IsSubsequence(r, listing)
    ensures forall f :: f in r <==> f in listing && EndsWith(f, FileType)
  {
    Filter(listing, (f: string) => EndsWith(f, FileType))
  }

  /** A profile's label: the file name up to its first `.`. */
  function ProfileLabel(file: string): (stem: string)
    ensures '.' !in stem
    ensures StartsWith(file, stem)
    ensures |stem| < |file| ==> file[|stem|] == '.'
  {
    SplitOnHead(file, '.');
    SplitOn(file, '.')[0]
  }

  /** A profile saved under a name without dots is listed under that name. */
  lemma SavedProfileLabel(name: string, listing: seq<string>)
    requires '.' !in name
    ensures ProfileLabel(SettingsFileName(name)) == name
    ensures SettingsFileName(name) in listing ==> SettingsFileName(name) in ExistingProfiles(listing)
  {
    var file := SettingsFileName(name);
    var stem := ProfileLabel(file);
    NoDotNotJson(name);
    assert file == name + FileType;
    assert file[|name|] == '.';
  }

  lemma NoDotNotJson(name: string)
    requires '.' !in name
    ensures !EndsWith(name, FileType)
  {
    if |FileType| <= |name| {
      var k := |name| - |FileType|;
      assert name[k] != '.';
      assert name[k..][0] == name[k];
    }
  }

  /** The dropdown options: each profile file under its label. */
  function ProfileOptions(profiles: seq<string>): (r: seq<(string, string)>)
    ensures |r| == |profiles|
    ensures forall i :: 0 <= i < |r| ==> r[i].1 == profiles[i] && StartsWith(profiles[i], r[i].0) && '.' !in r[i].0
    ensures forall i :: 0 <= i < |r| && |r[i].0| < |profiles[i]| ==> profiles[i][|r[i].0|] == '.'
  {
    seq(|profiles|, i requires 0 <= i < |profiles| => (ProfileLabel(profiles[i]), profiles[i]))
  }

  // Saving.

  /** A dropdown value: one choice, or a list of them. */
  datatype Selection = One(value: string) | Several(values: seq<string>)

  /** A single choice is stored as a list of one. */
  function WrapList(s: Selection): (r: seq<string>)
    ensures s.One? ==> r == [s.value]
    ensures s.Several? ==> r == s.values
  {
    match s
    case One(v) => [v]
    case Several(vs) => vs
  }

  /** Wrapping what is already a list changes nothing. */
  lemma WrapListStable(s: Selection)
    ensures WrapList(Several(WrapList(s))) == WrapList(s)
  {
  }

  /** The form as the page submits it. */
  datatype Form = Form(
    favoriteFoods: Option<string>,
    menuCategories: Selection,
    offset: int,
    mensen: Selection,
    hour: Option<int>,
    minute: Option<int>,
    alarmDays: Option<seq<string>>,
    serverUrl: string,
    token: string,
    priority: int,
    secure: bool,
    settingsFile: string)

  /** What a saved profile holds. */
  datatype Saved = Saved(
    favoriteFoods: seq<string>,
    menuCategories: seq<string>,
    mensen: seq<string>,
    offset: int,
    schedule: ScheduleSettings,
    serverUrl: string,
    token: string,
    priority: int,
    secure: bool,
    settingsFile: string)

  /** `save_settings`: nothing happens before the button was clicked;
      afterwards the form is normalised into the profile that is written,
      and its schedule is what the cron job is built from. */
  function SaveSettings(clicks: int, form: Form): (r: Option<Saved>)
    ensures r.None? <==> clicks <= 0
    ensures r.Some? ==> r.value.settingsFile == SettingsFileName(form.settingsFile)
    ensures r.Some? ==> r.value.favoriteFoods == SplitFavoriteFoods(form.favoriteFoods)
    ensures r.Some? ==> r.value.schedule.alarmDays == Some(UpdateAlarmDays(form.alarmDays))
    ensures r.Some? ==> r.value.menuCategories == WrapList(form.menuCategories) && r.value.mensen == WrapList(form.mensen)
    ensures r.Some? ==>
      r.value.offset == form.offset && r.value.schedule.hour == form.hour && r.value.schedule.minute == form.minute
      && r.value.serverUrl == form.serverUrl && r.value.token == form.token
      && r.value.priority == form.priority && r.value.secure == form.secure
  {
    if clicks <= 0 then None
    else
      Some(Saved(
        SplitFavoriteFoods(form.favoriteFoods),
        WrapList(form.menuCategories),
        WrapList(form.mensen),
        form.offset,
        ScheduleSettings(form.hour, form.minute, Some(UpdateAlarmDays(form.alarmDays))),
        form.serverUrl, form.token, form.priority, form.secure,
        SettingsFileName(form.settingsFile)))
  }

  /** Saving with a time and at least one weekday schedules a job on
      exactly those days; saving with no day ticked makes the cron job
      fail. */
  lemma SavedScheduleDays(form: Form, opts: CronOptions, existing: string)
    requires form.hour.Some? && form.minute.Some?
    ensures var s := SaveSettings(1, form).value.schedule;
      (form.alarmDays.None? || form.alarmDays.value == []) ==> CreateCronjob(s, opts, existing) == Err(NoDayEnabled)
    ensures var s := SaveSettings(1, form).value.schedule;
      form.alarmDays.Some? && Distinct(form.alarmDays.value) ==> EnabledDays(AlarmDaysOf(s)) == form.alarmDays.value
  {
    if form.alarmDays.Some? && Distinct(form.alarmDays.value) {
      AlarmDaysRoundTrip(form.alarmDays.value);
    }
  }

  /** The cron job that saving registers, under the saved file name: given a
      time and distinct weekdays, the crontab gains one line whose schedule
      reads back as that time on exactly those days, in the order ticked. */
  lemma SaveSchedulesJob(form: Form, existing: string)
    requires form.hour.Some? && form.minute.Some?
    requires form.alarmDays.Some? && form.alarmDays.value != [] && Distinct(form.alarmDays.value)
    requires forall i :: 0 <= i < |form.alarmDays.value| ==> form.alarmDays.value[i] in Weekdays
    requires !HasLineBreak(form.settingsFile)
    ensures var saved := SaveSettings(1, form).value;
      var r := CreateCronjob(saved.schedule, CronOptions(Some(saved.settingsFile), None, None, None, None), existing);
      r.Ok?
      && var lines := SplitLines(r.value);
         |lines| >= 1
         && lines[..|lines| - 1] == (if IsBlank(existing) then [""] else SplitLines(Strip(existing)))
         && ScheduleFields(SplitOn(lines[|lines| - 1], ' '), form.minute.value, form.hour.value, form.alarmDays.value)
    ensures var saved := SaveSettings(1, form).value;
      var lines := SplitLines(CreateCronjob(saved.schedule, CronOptions(Some(saved.settingsFile), None, None, None, None), existing).value);
      ' ' !in form.settingsFile ==>
        var fields := SplitOn(lines[|lines| - 1], ' ');
        |fields| == 11
        && fields[5..] == [DefaultCondaEnvPath, DefaultScriptPath, saved.settingsFile, ">>", DefaultLogPath, "2>&1"]
  {
    var saved := SaveSettings(1, form).value;
    AlarmDaysRoundTrip(form.alarmDays.value);
    assert EnabledDays(AlarmDaysOf(saved.schedule)) == form.alarmDays.value;
    SettingsFileSingleLine(form.settingsFile);
    var opts := CronOptions(Some(saved.settingsFile), None, None, None, None);
    CreateCronjobWrites(saved.schedule, opts, existing);
    if ' ' !in form.settingsFile {
      SettingsFileNoSpace(form.settingsFile);
      OnlySettingsName(opts);
    }
  }

  /** The options of a job given only a non-empty, space-free settings
      name. */
  lemma OnlySettingsName(opts: CronOptions)
    requires opts.settingsName.Some? && opts.settingsName.value != [] && ' ' !in opts.settingsName.value
    requires opts.condaEnvPath.None? && opts.logPath.None? && opts.scriptPath.None? && opts.cronCommand.None?
    ensures !Truthy(opts.cronCommand)
    ensures NoSpace(opts.settingsName) && NoSpace(opts.condaEnvPath) && NoSpace(opts.logPath) && NoSpace(opts.scriptPath)
    ensures [Or(opts.condaEnvPath, DefaultCondaEnvPath), Or(opts.scriptPath, DefaultScriptPath),
             Or(opts.settingsName, ""), ">>", Or(opts.logPath, DefaultLogPath), "2>&1"]
      == [DefaultCondaEnvPath, DefaultScriptPath, opts.settingsName.value, ">>", DefaultLogPath, "2>&1"]
  {
  }

  lemma SettingsFileNoSpace(name: string)
    requires ' ' !in name
    ensures ' ' !in SettingsFileName(name) && SettingsFileName(name) != []
  {
    assert ' ' !in FileType;
    if !EndsWith(name, FileType) {
      assert SettingsFileName(name) == name + FileType;
    }
  }

  lemma SettingsFileSingleLine(name: string)
    requires !HasLineBreak(name)
    ensures !HasLineBreak(SettingsFileName(name))
  {
    assert !HasLineBreak(FileType);
    NoBreakConcat(name, FileType);
  }

  // Canteen names.

  /** `modify_mensa_name` of the page: every canteen of the registry, in
      order, with its code, its title-cased city and its display name. */
  function ModifyMensaNames(d: MensaDict): (r: seq<(string, string, string)>)
    ensures |r| == |d|
    ensures forall i :: 0 <= i < |r| ==> r[i].0 == d[i].0 && r[i].1 == Title(d[i].1.0)
    ensures forall i :: 0 <= i < |r| ==> |r[i].2| == |d[i].1.1| && '-' !in r[i].2
  {
    seq(|d|, i requires 0 <= i < |d| => (d[i].0, Title(d[i].1.0), DisplayName(d[i].1.1)))
  }

  /** The page and the scraper agree on every canteen's display name. */
  lemma MensaNamesAgree(d: MensaDict, i: int)
    requires IsDict(d) && 0 <= i < |d|
    ensures ModifyMensaNames(d)[i].2 == ModifyMensaName(d, d[i].0)
  {
    GetAt(d, i);
  }
}

=== FILE: text.dfy ===
/** The `str` methods the Python code relies on (`lower`, `upper`,
    `title`, `replace`, `strip`, `in`, `endswith`, `splitlines`, `str(int)`),
    over strings as sequences of characters. */
module Text {
  import opened Wrappers
  import opened Seqs

  /** The characters CPython's `str.isspace` (and so `str.strip`) treats as
      whitespace. */
  predicate IsSpace(c: char) {
    c == ' ' || '\t' <= c <= '\r' || '\U{001C}' <= c <= '\U{001F}'
    || c == '\U{0085}' || c == '\U{00A0}' || c == '\U{1680}' || '\U{2000}' <= c <= '\U{200A}'
    || c == '\U{2028}' || c == '\U{2029}' || c == '\U{202F}' || c == '\U{205F}' || c == '\U{3000}'
  }

  /** The characters at which CPython's `str.splitlines` ends a line
      (`"\r\n"` counts as one boundary); all of them are whitespace. */
  predicate IsLineBreak(c: char) {
    '\n' <= c <= '\r' || '\U{001C}' <= c <= '\U{001E}'
    || c == '\U{0085}' || c == '\U{2028}' || c == '\U{2029}'
  }

  /** A string argument that Python treats as true: given and non-empty. */
  predicate Truthy(o: Option<string>) {
    o.Some? && o.value != []
  }

  /** Every character is whitespace (the empty string included). */
  predicate IsBlank(s: string) { forall i :: 0 <= i < |s| ==> IsSpace(s[i]) }

  predicate HasLineBreak(s: string) { exists i :: 0 <= i < |s| && IsLineBreak(s[i]) }

  // Case mapping: ASCII letters and the letter pairs of Latin-1.

  predicate IsUpperLetter(c: char) {
    'A' <= c <= 'Z' || ('\U{00C0}' <= c <= '\U{00DE}' && c != '\U{00D7}')
  }

  predicate IsLowerLetter(c: char) {
    'a' <= c <= 'z' || ('\U{00E0}' <= c <= '\U{00FE}' && c != '\U{00F7}')
  }

  /** Characters that take part in title-casing (Unicode "Cased"). */
  predicate IsCased(c: char) {
    IsUpperLetter(c) || IsLowerLetter(c)
    || c == '\U{00AA}' || c == '\U{00B5}' || c == '\U{00BA}' || c == '\U{00DF}' || c == '\U{00FF}'
  }

  function LowerChar(c: char): char {
    if IsUpperLetter(c) then (c as int + 32) as char else c
  }

  function UpperChar(c: char): char {
    if IsLowerLetter(c) then (c as int - 32) as char else c
  }

  /** `s.lower()` */
  function Lower(s: string): string {
    seq(|s|, i requires 0 <= i < |s| => LowerChar(s[i]))
  }

  /** `s.upper()` */
  function Upper(s: string): string {
    seq(|s|, i requires 0 <= i < |s| => UpperChar(s[i]))
  }

  /** Case mapping changes only cased characters, and keeps them cased. */
  lemma CaseMapCased(c: char)
    ensures IsCased(UpperChar(c)) == IsCased(c) && IsCased(LowerChar(c)) == IsCased(c)
    ensures !IsCased(c) ==> UpperChar(c) == c && LowerChar(c) == c
  {
    if IsLowerLetter(c) {
      assert IsUpperLetter(UpperChar(c));
    }
    if IsUpperLetter(c) {
      assert IsLowerLetter(LowerChar(c));
    }
  }

  /** On one character, lower-casing forgets an earlier change of case. */
  lemma LowerUpperChar(c: char)
    ensures LowerChar(UpperChar(c)) == LowerChar(c) && LowerChar(LowerChar(c)) == LowerChar(c)
  {
    if IsLowerLetter(c) {
      assert IsUpperLetter(UpperChar(c));
    }
    if IsUpperLetter(c) {
      assert !IsUpperLetter(LowerChar(c));
    }
  }

  /** Lower-casing twice is lower-casing once. */
  lemma LowerIdempotent(s: string)
    ensures Lower(Lower(s)) == Lower(s)
  {
    forall i | 0 <= i < |s|
      ensures Lower(Lower(s))[i] == Lower(s)[i]
    {
      var c := s[i];
      if IsUpperLetter(c) {
        assert !IsUpperLetter(LowerChar(c));
      }
    }
  }

  /** Lower-casing forgets any earlier upper-casing: `s.upper().lower() ==
      s.lower()`. */
  lemma LowerUpper(s: string)
    ensures Lower(Upper(s)) == Lower(s)
  {
    forall i | 0 <= i < |s|
      ensures Lower(Upper(s))[i] == Lower(s)[i]
    {
      var c := s[i];
      if IsLowerLetter(c) {
        assert IsUpperLetter(UpperChar(c));
      }
    }
  }

  /** `s.title()` as CPython computes it: a character is title-cased when
      the character before it is not cased, and lower-cased otherwise. */
  function Title(s: string): string {
    TitleFrom(s, false)
  }

  function TitleFrom(s: string, previousIsCased: bool): (r: string)
    ensures |r| == |s|
  {
    if s == [] then []
    else
      [if previousIsCased then LowerChar(s[0]) else UpperChar(s[0])]
      + TitleFrom(s[1..], IsCased(s[0]))
  }

  /** Character by character: every word (maximal run of cased characters)
      starts upper-case and continues lower-case; other characters stay. */
  lemma TitleChars(s: string)
    ensures |Title(s)| == |s|
    ensures forall i :: 0 <= i < |s| ==>
      Title(s)[i] == if i == 0 || !IsCased(s[i - 1]) then UpperChar(s[i]) else LowerChar(s[i])
  {
    TitleFromChars(s, false);
  }

  /** One character of `s.title()`. */
  lemma TitleAt(s: string, i: int)
    requires 0 <= i < |s|
    ensures |Title(s)| == |s|
    ensures (i == 0 || !IsCased(s[i - 1])) ==> Title(s)[i] == UpperChar(s[i])
    ensures i > 0 && IsCased(s[i - 1]) ==> Title(s)[i] == LowerChar(s[i])
  {
    TitleChars(s);
    assert Title(s)[i] == if i == 0 || !IsCased(s[i - 1]) then UpperChar(s[i]) else LowerChar(s[i]);
  }

  lemma {:induction false} TitleFromChars(s: string, previousIsCased: bool)
    ensures forall i :: 0 <= i < |s| ==>
      TitleFrom(s, previousIsCased)[i] ==
        if (i == 0 && !previousIsCased) || (i > 0 && !IsCased(s[i - 1])) then UpperChar(s[i])
        else LowerChar(s[i])
    decreases |s|
  {
    if s != [] {
      TitleFromChars(s[1..], IsCased(s[0]));
      var r := TitleFrom(s, previousIsCased);
      forall i | 0 < i < |s|
        ensures r[i] == if !IsCased(s[i - 1]) then UpperChar(s[i]) else LowerChar(s[i])
      {
        assert r[i] == TitleFrom(s[1..], IsCased(s[0]))[i - 1];
        if i == 1 {
        } else {
          assert s[1..][i - 2] == s[i - 1];
        }
      }
    }
  }

  /** `s.replace(a, b)` for single characters `a` and `b`. */
  function ReplaceChar(s: string, a: char, b: char): string {
    seq(|s|, i requires 0 <= i < |s| => if s[i] == a then b else s[i])
  }

  // Prefixes, suffixes and substrings.

  predicate StartsWith(s: string, prefix: string) {
    |prefix| <= |s| && s[..|prefix|] == prefix
  }

  /** `s.endswith(suffix)` */
  predicate EndsWith(s: string, suffix: string) {
    |suffix| <= |s| && s[|s| - |suffix|..] == suffix
  }

  /** `needle` occurs in `hay` starting at offset `i`. */
  predicate OccursAt(needle: string, hay: string, i: int) {
    0 <= i <= |hay| - |needle| && hay[i..i + |needle|] == needle
  }

  /** `needle in hay`, scanning `hay` from the left. */
  predicate IsSubstring(needle: string, hay: string)
    decreases |hay|
  {
    StartsWith(hay, needle) || (hay != [] && IsSubstring(needle, hay[1..]))
  }

  /** The scan agrees with the positional definition: `needle` occurs at
      some offset of `hay`. */
  lemma {:induction false} IsSubstringAt(needle: string, hay: string)
    ensures IsSubstring(needle, hay) <==> exists i :: OccursAt(needle, hay, i)
    decreases |hay|
  {
    if StartsWith(hay, needle) {
      assert OccursAt(needle, hay, 0);
    } else if hay == [] {
      assert forall i :: !OccursAt(needle, hay, i);
    } else {
      IsSubstringAt(needle, hay[1..]);
      if exists i :: OccursAt(needle, hay, i) {
        var i :| OccursAt(needle, hay, i);
        assert i != 0;
        assert OccursAt(needle, hay[1..], i - 1);
      }
      if IsSubstring(needle, hay[1..]) {
        var i :| OccursAt(needle, hay[1..], i);
        assert OccursAt(needle, hay, i + 1);
      }
    }
  }

  // Stripping.

  function TrimLeft(s: string): (r: string)
    ensures |r| <= |s| && r == s[|s| - |r|..]
    ensures IsBlank(s[..|s| - |r|])
    ensures r != [] ==> !IsSpace(r[0])
  {
    if s != [] && IsSpace(s[0]) then
      var r := TrimLeft(s[1..]);
      BlankConcat(s[..1], s[1..][..|s| - 1 - |r|]);
      assert s[..|s| - |r|] == s[..1] + s[1..][..|s| - 1 - |r|];
      r
    else s
  }

  function TrimRight(s: string): (r: string)
    ensures |r| <= |s| && r == s[..|r|]
    ensures IsBlank(s[|r|..])
    ensures r != [] ==> !IsSpace(r[|r| - 1])
  {
    if s != [] && IsSpace(s[|s| - 1]) then
      var r := TrimRight(s[..|s| - 1]);
      BlankConcat(s[..|s| - 1][|r|..], s[|s| - 1..]);
      assert s[|r|..] == s[..|s| - 1][|r|..] + s[|s| - 1..];
      r
    else s
  }

  /** `s.strip()` */
  function Strip(s: string): string {
    TrimRight(TrimLeft(s))
  }

  lemma BlankConcat(a: string, b: string)
    ensures IsBlank(a + b) <==> IsBlank(a) && IsBlank(b)
  {
    if IsBlank(a + b) {
      forall i | 0 <= i < |a| ensures IsSpace(a[i]) {
        assert (a + b)[i] == a[i];
      }
      forall i | 0 <= i < |b| ensures IsSpace(b[i]) {
        assert (a + b)[|a| + i] == b[i];
      }
    }
    if IsBlank(a) && IsBlank(b) {
      forall i | 0 <= i < |a + b| ensures IsSpace((a + b)[i]) {
        if i < |a| {
          assert (a + b)[i] == a[i];
        } else {
          assert (a + b)[i] == b[i - |a|];
        }
      }
    }
  }

  /** `strip` removes blank text from both ends and nothing else: what is
      left starts and ends with a non-blank, and is empty exactly when the
      whole string was blank. */
  lemma StripShape(s: string)
    ensures exists lead, trail :: s == lead + Strip(s) + trail && IsBlank(lead) && IsBlank(trail)
    ensures Strip(s) != [] ==> !IsSpace(Strip(s)[0]) && !IsSpace(Strip(s)[|Strip(s)| - 1])
    ensures Strip(s) == [] <==> IsBlank(s)
  {
    var lead, trail := StripFrame(s);
    StripEnds(s);
    var r := Strip(s);
    BlankConcat(lead, r + trail);
    BlankConcat(r, trail);
    AppendAssoc(lead, r, trail);
    assert IsBlank(s) <==> IsBlank(r);
  }

  lemma StripEnds(s: string)
    ensures Strip(s) != [] ==> !IsSpace(Strip(s)[0]) && !IsSpace(Strip(s)[|Strip(s)| - 1])
  {
    var left := TrimLeft(s);
    var r := TrimRight(left);
    if r != [] {
      assert r[0] == left[0];
    }
  }

  lemma StripFrame(s: string) returns (lead: string, trail: string)
    ensures s == lead + Strip(s) + trail && IsBlank(lead) && IsBlank(trail)
  {
    var left := TrimLeft(s);
    lead := s[..|s| - |left|];
    SliceSplit(s, |s| - |left|);
    var r := TrimRight(left);
    trail := left[|r|..];
    SliceSplit(left, |r|);
    AppendAssoc(lead, r, trail);
  }

  /** A string that already has no surrounding whitespace is its own strip. */
  lemma StripStripped(s: string)
    requires s == [] || (!IsSpace(s[0]) && !IsSpace(s[|s| - 1]))
    ensures Strip(s) == s
  {
  }

  /** One leading blank before an already stripped, non-empty string is
      removed again by `strip`. */
  lemma StripSpacePrefix(x: string)
    requires x != [] && Strip(x) == x
    ensures Strip(" " + x) == x
  {
    assert (" " + x)[1..] == x;
  }

  /** Whitespace joins to whitespace: `sep.join(parts)` is blank exactly
      when every part is, given a blank separator. */
  lemma {:induction false} JoinBlank(parts: seq<string>, sep: string)
    requires IsBlank(sep)
    ensures IsBlank(Join(parts, sep)) <==> forall i :: 0 <= i < |parts| ==> IsBlank(parts[i])
    decreases |parts|
  {
    if |parts| > 1 {
      JoinBlank(parts[1..], sep);
      var rest := Join(parts[1..], sep);
      var all := parts[0] + sep + rest;
      assert IsBlank(all) <==> IsBlank(parts[0]) && IsBlank(rest) by {
        if IsBlank(all) {
          forall i | 0 <= i < |parts[0]| ensures IsSpace(parts[0][i]) { assert all[i] == parts[0][i]; }
          forall i | 0 <= i < |rest| ensures IsSpace(rest[i]) {
            assert all[|parts[0]| + |sep| + i] == rest[i];
          }
        }
      }
      assert forall i :: 1 <= i < |parts| ==> parts[i] == parts[1..][i - 1];
    }
  }

  // Lines.

  /** Two strings joined hold a line boundary exactly when one of them does. */
  lemma NoBreakConcat(a: string, b: string)
    ensures HasLineBreak(a + b) <==> HasLineBreak(a) || HasLineBreak(b)
  {
    if HasLineBreak(a + b) {
      var i :| 0 <= i < |a + b| && IsLineBreak((a + b)[i]);
      if i < |a| { assert IsLineBreak(a[i]); } else { assert IsLineBreak(b[i - |a|]); }
    }
    if HasLineBreak(a) {
      var i :| 0 <= i < |a| && IsLineBreak(a[i]);
      assert (a + b)[i] == a[i];
    }
    if HasLineBreak(b) {
      var i :| 0 <= i < |b| && IsLineBreak(b[i]);
      assert (a + b)[|a| + i] == b[i];
    }
  }

  /** Parts and a separator without line boundaries join to a single line. */
  lemma {:induction false} JoinNoBreak(parts: seq<string>, sep: string)
    requires !HasLineBreak(sep) && forall i :: 0 <= i < |parts| ==> !HasLineBreak(parts[i])
    ensures !HasLineBreak(Join(parts, sep))
    decreases |parts|
  {
    if |parts| > 1 {
      assert forall i :: 0 <= i < |parts[1..]| ==> parts[1..][i] == parts[i + 1];
      JoinNoBreak(parts[1..], sep);
      NoBreakConcat(parts[0], sep);
      NoBreakConcat(parts[0] + sep, Join(parts[1..], sep));
    }
  }

  /** The index of the first line boundary, or `|s|` if there is none. */
  function LineEnd(s: string): (i: nat)
    ensures i <= |s|
  {
    if s == [] || IsLineBreak(s[0]) then 0 else 1 + LineEnd(s[1..])
  }

  /** `LineEnd` stops at the first boundary. */
  lemma {:induction false} LineEndFirst(s: string)
    ensures forall j :: 0 <= j < LineEnd(s) ==> !IsLineBreak(s[j])
    ensures LineEnd(s) < |s| ==> IsLineBreak(s[LineEnd(s)])
    decreases |s|
  {
    if s != [] && !IsLineBreak(s[0]) {
      LineEndFirst(s[1..]);
      assert forall j :: 1 <= j < |s| ==> s[j] == s[1..][j - 1];
    }
  }

  /** A boundary is one character, or two for `"\r\n"`. */
  function BreakWidth(s: string, i: nat): nat
    requires i < |s|
  {
    if s[i] == '\r' && i + 1 < |s| && s[i + 1] == '\n' then 2 else 1
  }

  /** `s.splitlines()`: the lines between boundaries, with no empty last
      line after a final boundary. */
  function SplitLines(s: string): (lines: seq<string>)
    ensures forall k :: 0 <= k < |lines| ==> !HasLineBreak(lines[k])
    decreases |s|
  {
    LineEndFirst(s);
    if s == [] then []
    else if LineEnd(s) == |s| then [s]
    else [s[..LineEnd(s)]] + SplitLines(AfterLine(s))
  }

  /** What follows the first line and its boundary. */
  function AfterLine(s: string): (rest: string)
    requires LineEnd(s) < |s|
    ensures |rest| < |s|
  {
    s[LineEnd(s) + BreakWidth(s, LineEnd(s))..]
  }

  /** A string without boundaries is its own single line. */
  lemma SplitLinesSingle(x: string)
    requires x != [] && !HasLineBreak(x)
    ensures SplitLines(x) == [x]
  {
    LineEndFirst(x);
    assert LineEnd(x) == |x|;
  }

  /** A first line without boundaries, followed by `"\n"`, splits off. */
  lemma SplitLinesCons(x: string, y: string)
    requires !HasLineBreak(x)
    ensures SplitLines(x + "\n" + y) == [x] + SplitLines(y)
  {
    var s := x + "\n" + y;
    LineEndAt(x, y);
    assert s[..|x|] == x;
    assert s[|x| + 1..] == y;
  }

  lemma {:induction false} LineEndAt(x: string, y: string)
    requires !HasLineBreak(x)
    ensures LineEnd(x + "\n" + y) == |x| && BreakWidth(x + "\n" + y, |x|) == 1
    decreases |x|
  {
    if x != [] {
      assert !IsLineBreak(x[0]);
      assert !HasLineBreak(x[1..]);
      assert (x + "\n" + y)[1..] == x[1..] + "\n" + y;
      LineEndAt(x[1..], y);
    }
    assert IsLineBreak('\n');
  }

  /** `"\n".join(lines) + "\n"` splits back into `lines` when no line holds
      a boundary. */
  lemma {:induction false} SplitLinesJoin(lines: seq<string>)
    requires lines != []
    requires forall k :: 0 <= k < |lines| ==> !HasLineBreak(lines[k])
    ensures SplitLines(Join(lines, "\n") + "\n") == lines
    decreases |lines|
  {
    if |lines| == 1 {
      assert Join(lines, "\n") + "\n" == lines[0] + "\n" + "";
      SplitLinesCons(lines[0], "");
    } else {
      assert Join(lines, "\n") + "\n" == lines[0] + "\n" + (Join(lines[1..], "\n") + "\n");
      SplitLinesCons(lines[0], Join(lines[1..], "\n") + "\n");
      SplitLinesJoin(lines[1..]);
      assert [lines[0]] + lines[1..] == lines;
    }
  }

  lemma SplitLinesStep(s: string)
    requires LineEnd(s) < |s|
    ensures SplitLines(s) == [s[..LineEnd(s)]] + SplitLines(AfterLine(s))
  {
  }

  /** Appending `"\n"` and more text to a text whose last character is no
      boundary appends the lines of that text. */
  lemma {:induction false} SplitLinesAppend(a: string, b: string)
    requires a != [] && !IsLineBreak(a[|a| - 1])
    ensures SplitLines(a + "\n" + b) == SplitLines(a) + SplitLines(b)
    decreases |a|
  {
    var i := LineEnd(a);
    if i == |a| {
      LineEndFirst(a);
      assert !HasLineBreak(a);
      SplitLinesCons(a, b);
    } else {
      var w := BreakWidth(a, i);
      FirstLineOfAppend(a, b);
      var rest := a[i + w..];
      assert rest != [] && rest[|rest| - 1] == a[|a| - 1];
      SplitLinesAppend(rest, b);
      SplitLinesStep(a);
      assert SplitLines(a) == [a[..i]] + SplitLines(rest);
      assert SplitLines(a + "\n" + b) == [a[..i]] + (SplitLines(rest) + SplitLines(b));
      AppendAssoc([a[..i]], SplitLines(rest), SplitLines(b));
    }
  }

  /** The first line of `a + "\n" + b` ends where the first line of `a`
      ends, if `a` has a boundary before its last character. */
  lemma FirstLineOfAppend(a: string, b: string)
    requires a != [] && !IsLineBreak(a[|a| - 1]) && LineEnd(a) < |a|
    ensures LineEnd(a) + BreakWidth(a, LineEnd(a)) < |a|
    ensures SplitLines(a + "\n" + b)
      == [a[..LineEnd(a)]] + SplitLines(a[LineEnd(a) + BreakWidth(a, LineEnd(a))..] + "\n" + b)
  {
    var t := "\n" + b;
    var s := a + t;
    AppendAssoc(a, "\n", b);
    var i := LineEnd(a);
    LineEndPrefix(a, t);
    LineEndFirst(a);
    assert i < |a| - 1;
    assert s[i] == a[i] && s[i + 1] == a[i + 1];
    var w := BreakWidth(a, i);
    assert BreakWidth(s, i) == w;
    assert i + w < |a| by {
      if w == 2 {
        assert IsLineBreak(a[i + 1]);
      }
    }
    SliceAppend(a, t, i + w);
    SliceAppend(a, t, i);
    AppendAssoc(a[i + w..], "\n", b);
    SplitLinesStep(s);
  }

  lemma {:induction false} LineEndPrefix(a: string, b: string)
    requires LineEnd(a) < |a|
    ensures LineEnd(a + b) == LineEnd(a)
    decreases |a|
  {
    if !IsLineBreak(a[0]) {
      assert (a + b)[1..] == a[1..] + b;
      LineEndPrefix(a[1..], b);
    }
  }

  // Decimal numerals.

  function DigitChar(d: nat): char
    requires d < 10
  {
    ('0' as int + d) as char
  }

  predicate IsDigit(c: char) { '0' <= c <= '9' }

  /** `str(n)` for `n >= 0`: at least one digit, no sign, no leading zero. */
  function NatToString(n: nat): (s: string)
    ensures s != []
    ensures forall i :: 0 <= i < |s| ==> IsDigit(s[i])
    decreases n
  {
    if n < 10 then [DigitChar(n)] else NatToString(n / 10) + [DigitChar(n % 10)]
  }

  /** `str(i)` */
  function IntToString(i: int): string {
    if i < 0 then "-" + NatToString(-i) else NatToString(i)
  }

  /** The value of a string of decimal digits. */
  function DigitsValue(s: string): nat
    requires forall i :: 0 <= i < |s| ==> IsDigit(s[i])
  {
    if s == [] then 0
    else
      assert IsDigit(s[|s| - 1]);
      DigitsValue(s[..|s| - 1]) * 10 + (s[|s| - 1] as int - '0' as int)
  }

  /** What `str` produces for an integer: an optional minus sign and
      digits. */
  predicate IsIntString(s: string) {
    s != [] && (s[0] == '-' || IsDigit(s[0])) && forall i :: 1 <= i < |s| ==> IsDigit(s[i])
  }

  /** `int(s)` for what `str` produces. */
  function ParseInt(s: string): int
    requires IsIntString(s)
  {
    if s[0] == '-' then 0 - DigitsValue(s[1..]) else DigitsValue(s)
  }

  lemma {:induction false} DigitsValueNatToString(n: nat)
    ensures DigitsValue(NatToString(n)) == n
    decreases n
  {
    if n >= 10 {
      var s := NatToString(n);
      DigitsValueNatToString(n / 10);
      assert s[..|s| - 1] == NatToString(n / 10);
    }
  }

  /** `int(str(i)) == i` */
  lemma ParseIntToString(i: int)
    ensures IsIntString(IntToString(i)) && ParseInt(IntToString(i)) == i
  {
    var s := IntToString(i);
    if i < 0 {
      assert s[1..] == NatToString(-i);
      DigitsValueNatToString(-i);
    } else {
      DigitsValueNatToString(i);
    }
  }
}

=== FILE: timewindow.dfy ===
/** Dropping the meal categories whose serving time is over. Times of day
    are seconds since midnight; the offset is a number of minutes. */
module TimeWindow {
  import opened Wrappers
  import opened Seqs
  import opened Dicts

  const DayLength: int := 86400

  /** A time of day, to the second. */
  type TimeOfDay = t: int | 0 <= t < 86400

  /** Category -> the time its serving ends. */
  type Timetable = Dict<string, TimeOfDay>

  const DefaultTimetable: Timetable := [
    ("Fr\U{00FC}hst\U{00FC}ck", 36000),  // 10:00
    ("Mittagessen", 50400),              // 14:00
    ("Zwischenversorgung", 59400),       // 16:30
    ("Abendmensa", 70200)                // 19:30
  ]

  const DefaultOffset: int := 30

  /** The timetable in use: an absent or empty one is replaced by the
      default. */
  function EffectiveTimetable(timetable: Option<Timetable>): (t: Timetable)
    ensures t != []
    ensures timetable.Some? && timetable.value != [] ==> t == timetable.value
    ensures timetable.None? || timetable.value == [] ==> t == DefaultTimetable
  {
    if timetable.Some? && timetable.value != [] then timetable.value else DefaultTimetable
  }

  /** The end of a category's serving, midnight for a category the
      timetable does not know. */
  function Cutoff(timetable: Timetable, category: string): (t: TimeOfDay)
    ensures category !in Keys(timetable) ==> t == 0
    ensures category in Keys(timetable) ==> (category, t) in timetable
  {
    match Get(timetable, category)
    case Some(t) => t
    case None => 0
  }

  /** The cutoff moved back by the offset, on the same 24-hour clock. */
  function EndTime(cutoff: TimeOfDay, offsetMinutes: int): (e: TimeOfDay)
    ensures (cutoff - 60 * offsetMinutes - e) % DayLength == 0
  {
    (cutoff - 60 * offsetMinutes) % DayLength
  }

  /** A category is still served while the clock is before its end time;
      at the end time it is over. */
  predicate IsOpen(timetable: Timetable, offsetMinutes: int, now: TimeOfDay, category: string) {
    now < EndTime(Cutoff(timetable, category), offsetMinutes)
  }

  /** An offset of whole days leaves the cutoff where it is: a category is
      open exactly before its timetable time, and one the timetable does
      not know is never open. */
  lemma WholeDayOffset(timetable: Timetable, days: int, now: TimeOfDay, category: string)
    ensures IsOpen(timetable, 1440 * days, now, category) <==> now < Cutoff(timetable, category)
    ensures category !in Keys(timetable) ==> !IsOpen(timetable, 1440 * days, now, category)
  {
    var c := Cutoff(timetable, category);
    assert 60 * (1440 * days) == DayLength * days;
    ModDays(c, days);
  }

  lemma ModDays(c: TimeOfDay, days: int)
    ensures (c - DayLength * days) % DayLength == c
  {
    assert c - DayLength * days == c + DayLength * (-days);
  }

  function OpenAt(timetable: Timetable, offsetMinutes: int, now: TimeOfDay): string -> bool {
    category => IsOpen(timetable, offsetMinutes, now, category)
  }

  /** `update_menu_categories` at time `now`: the categories still open,
      in their order, or nothing when none is. */
  function UpdateMenuCategories(categories: seq<string>, timetable: Option<Timetable>, offsetMinutes: int, now: TimeOfDay)
    : (r: Option<seq<string>>)
    ensures r.None? <==>
      forall i :: 0 <= i < |categories| ==> !IsOpen(EffectiveTimetable(timetable), offsetMinutes, now, categories[i])
    ensures r.Some? ==> r.value != [] && IsSubsequence(r.value, categories)
    ensures r.Some? ==> forall c :: c in r.value <==>
      c in categories && IsOpen(EffectiveTimetable(timetable), offsetMinutes, now, c)
    ensures r.Some? ==> forall c ::
      Count(r.value, c) == if IsOpen(EffectiveTimetable(timetable), offsetMinutes, now, c) then Count(categories, c) else 0
  {
    var t := EffectiveTimetable(timetable);
    var kept := Filter(categories, OpenAt(t, offsetMinutes, now));
    if kept == [] then
      assert forall i :: 0 <= i < |categories| ==> !IsOpen(t, offsetMinutes, now, categories[i]) by {
        forall i | 0 <= i < |categories| ensures !IsOpen(t, offsetMinutes, now, categories[i]) {
          assert categories[i] in categories;
        }
      }
      None
    else
      assert kept[0] in categories && IsOpen(t, offsetMinutes, now, kept[0]);
      Some(kept)
  }

  /** Lunch ends at 14:00; with the default 30 minutes it is dropped from
      13:30 on. */
  lemma LunchWindow()
    ensures UpdateMenuCategories(["Mittagessen"], None, 30, 48540) == Some(["Mittagessen"])  // 13:29
    ensures UpdateMenuCategories(["Mittagessen"], None, 30, 48600).None?                     // 13:30
    ensures UpdateMenuCategories(["Mittagessen"], None, 30, 48660).None?                     // 13:31
  {
    assert Cutoff(DefaultTimetable, "Mittagessen") == 50400 by {
      assert DefaultTimetable[1] == ("Mittagessen", 50400);
    }
    assert Filter(["Mittagessen"], OpenAt(DefaultTimetable, 30, 48540)) == ["Mittagessen"];
  }

  /** A category the timetable does not know ends at midnight: without an
      offset it is never open, with an offset of up to a day it closes that
      many minutes before midnight. */
  lemma UnknownCategory(timetable: Timetable, offsetMinutes: int, now: TimeOfDay, category: string)
    requires category !in Keys(timetable)
    ensures offsetMinutes == 0 ==> !IsOpen(timetable, offsetMinutes, now, category)
    ensures 0 < offsetMinutes <= 1440 ==>
      (IsOpen(timetable, offsetMinutes, now, category) <==> now < DayLength - 60 * offsetMinutes)
  {
  }

  /** The default timetable has no `Abendessen`, one of the scraper's
      default categories: with the default offset it stays open until
      23:30. */
  lemma DinnerNotInDefaultTable(now: TimeOfDay)
    ensures IsOpen(DefaultTimetable, DefaultOffset, now, "Abendessen") <==> now < 84600
  {
    assert "Abendessen" !in Keys(DefaultTimetable) by {
      assert Keys(DefaultTimetable) == ["Fr\U{00FC}hst\U{00FC}ck", "Mittagessen", "Zwischenversorgung", "Abendmensa"];
    }
  }

  /** An early cutoff wraps around midnight: a cutoff of 00:15 with 30
      minutes of offset ends at 23:45. */
  lemma WrapsAroundMidnight()
    ensures EndTime(900, 30) == 85500
  {
  }

  /** As the day goes on, categories only disappear: what is open later was
      open earlier, in the same order. */
  lemma LaterKeepsLess(categories: seq<string>, timetable: Option<Timetable>, offsetMinutes: int, early: TimeOfDay, late: TimeOfDay)
    requires early <= late
    ensures UpdateMenuCategories(categories, timetable, offsetMinutes, late).Some? ==>
      UpdateMenuCategories(categories, timetable, offsetMinutes, early).Some?
      && IsSubsequence(UpdateMenuCategories(categories, timetable, offsetMinutes, late).value,
                       UpdateMenuCategories(categories, timetable, offsetMinutes, early).value)
  {
    var t := EffectiveTimetable(timetable);
    FilterMono(categories, OpenAt(t, offsetMinutes, late), OpenAt(t, offsetMinutes, early));
  }
}

=== FILE: wrappers.dfy ===
/** Python's `None`-or-value and raise-or-return, as datatypes. */
module Wrappers {

  /** A value that Python would write as `None` or as the value itself. */
  datatype Option<+T> = None | Some(value: T)

  /** A value, or the exception the source raises instead of returning one. */
  datatype Result<+T, +E> = Ok(value: T) | Err(error: E)
}
